=== FILE: README.md ===
# gtfez in Dafny

This project models the core of gtfez, a small Python library for GTF gene
annotation files.

- **Records.** A GTF line is parsed into a `Record` with nine columns. The
  ninth column becomes an ordered attribute dictionary (`AttributesDict`).
  Printing a record gives back a tab-separated line.
- **NCBI cleanup** (`cleanup_ncbi`). This pass rewrites an NCBI-style GTF
  stream for CellRanger:
  - `Gnomon` records keep only the allowed attributes and get a `gene_name`
    copied from `gene`.
  - `RefSeq` (mitochondrial) `gene` records are expanded into a gene, a
    transcript and an exon record.
- **Gene names** (`add_gene_names`, `add_gene_symbols`). These two scripts
  read a two-column ID-to-name table. Each record whose ID attribute is in
  the table gets that name as an attribute.

The model is written as pure functions. Two of them are methods with
loops: the lenient table reader `GeneNames.TableToDict`, and
`GeneSymbols.AssignAll`, the entry-assignment loop that the strict reader
`GeneSymbols.TableToDict` calls.

- `results.dfy`: the two failures the code raises, `ParsingError` and
  `KeyError`, plus `Option` and `Result`.
- `text.dfy`: Python's `str.strip`, `rstrip(";")`, `split` and `join`. The
  split/join round trip is proved for a separator with no border, which
  covers `"\t"` and `"; "`.
- `decimal.dfy`: `int()` and `str()` for the `start` and `end` columns.
- `attributes.dfy`: `AttributesDict`, a list of key/value pairs in insertion
  order. Lookup, assignment and deletion act on the first pair with the
  key. Parsing always yields unique keys, and `ToMap` gives the plain map
  view. The module also holds the attribute grammar `^(\w+) "(.+)"$`,
  parsing the column, printing it, and the print/parse round trip.
- `records.dfy`: `Record`, its parser and printer, and the record round
  trip.
- `cleanup.dfy`: `fix_record`, `deal_with_mito_record` and
  `cleanup_ncbi_gtf`. The loop of `cleanup_ncbi_gtf` is `RunSteps`, which
  takes the per-item step as a parameter, and `Cleanup` applies it to
  `Route`.
- `gene_tables.dfy`: both `table_to_dict` readers, `add_gene_names` and
  `add_gene_symbols`.

Python exceptions become `Err` values. A stream function returns the items
written before the first exception, together with that exception.

## Model

| member | source | states |
|---|---|---|
| Attributes.Keys | gtfez/__init__.py:113-114 | iterating a dictionary yields one key per pair |
| Attributes.KeysMember | gtfez/__init__.py:113-114 | a key is iterated exactly when some pair has it |
| Attributes.KeysSnoc | gtfez/__init__.py:104-114 | after a pair is appended, the keys iterated are the earlier ones and the new pair's key |
| Attributes.KeysUnique | gtfez/__init__.py:113-114 | the keys iterated are pairwise distinct exactly when the dictionary has unique keys |
| Attributes.IndexOf | gtfez/__init__.py:107-108 | the position of the first pair with the key, or -1 exactly when no pair has it |
| Attributes.Get | gtfez/__init__.py:107-108 | `d[k]` succeeds exactly when some pair has key `k`; otherwise it raises `KeyError`; on unique keys it returns the one value paired with `k` |
| Attributes.Set | gtfez/__init__.py:104-105 | after `d[k] = v`, `d[k]` is `v` and every other key reads as before; an existing key keeps its position, a new key is appended; unique keys stay unique |
| Attributes.Delete | gtfez/__init__.py:110-111 | `del d[k]` raises `KeyError` exactly when `k` is absent; otherwise it removes one pair with key `k`, and on unique keys afterwards `k` is absent and every other key reads as before |
| Attributes.SetSame | gtfez/__init__.py:104-105 | assigning a key the value it already has leaves the dictionary unchanged |
| Attributes.ToMapKey | gtfez/__init__.py:107-108 | on unique keys, a key is in the map view exactly when some pair has it, and then lookup returns the map's value |
| Attributes.ToMapGet | gtfez/__init__.py:107-108 | on unique keys, lookup is lookup in the plain map view |
| Attributes.ToMapSet | gtfez/__init__.py:104-105 | on unique keys, assignment is a map update in the map view |
| Attributes.ToMapDelete | gtfez/__init__.py:110-111 | on unique keys, deleting a present key removes it from the map view |
| Attributes.MatchAttribute | gtfez/__init__.py:91 | a token matches `^(\w+) "(.+)"$` only if it is `key "value"` with a word-character key and a non-empty value, optionally followed by one final newline |
| Attributes.MatchAttributeOf | gtfez/__init__.py:91 | every such token matches, with or without the final newline, and yields its key and value |
| Attributes.TrailingJunkRejected | gtfez/__init__.py:91 | text after the closing quote that does not end in `"` or a newline makes the token fail to match (tests/test_parsing.py:76-86); a single trailing newline is still matched, because `$` matches before it |
| Attributes.EmptyValueRejected | gtfez/__init__.py:91 | an empty value `key ""` does not match |
| Attributes.Build | gtfez/__init__.py:97-102 | the pairs are built exactly when every token matches, and a failure is a `ParsingError`; keys stay unique because a repeated key overwrites in place |
| Attributes.Parse | gtfez/__init__.py:93-102 | parsing the column succeeds exactly when every `"; "`-separated token of the column, trailing semicolons removed, matches; the result has unique keys and is never empty |
| Attributes.EmptyFieldRejected | gtfez/__init__.py:97-102 | an empty attributes column is a `ParsingError` |
| Attributes.ParseIgnoresTrailingSemicolon | gtfez/__init__.py:97 | an extra trailing `;` makes no difference to parsing |
| Attributes.Print | gtfez/__init__.py:119-120 | an empty dictionary prints as nothing; otherwise the tokens are joined by `"; "` and end with `;` |
| Attributes.ParsePrint | gtfez/__init__.py:93-120 | round trip: a canonical dictionary prints to a column that parses back to it, with or without the final `;` |
| Attributes.ParseCanonical | gtfez/__init__.py:93-120 | anything that parses is canonical, so printing and re-parsing it gives the same result (tests/test_parsing.py:89-98) |
| Attributes.RepeatedKey | gtfez/__init__.py:97-102 | one shape of a repeat: a printed dictionary followed by one more pair with an existing key parses to the dictionary with that pair's value in the earlier position |
| Attributes.BuildLastWins | gtfez/__init__.py:97-102 | for any tokens that all match, however often and wherever keys repeat: the keys come in the order of their first token, and each key holds the value of its last token (in the map view, later pairs winning) |
| Attributes.ParseLastWins | gtfez/__init__.py:93-102 | the same for a whole column that parses: first positions, last values |
| Attributes.QuotedSeparatorRejected | gtfez/__init__.py:97 | a single pair whose value contains `"; "`, where the part before the first `"; "` does not end in `"` or a newline, is cut there, so its printed column fails to parse (tests/test_parsing.py:113-122 expects otherwise) |
| Attributes.QuotedSeparatorReparsed | gtfez/__init__.py:97 | a value of the form `x"; j "z` prints to a column that parses, but to the two pairs `k "x"` and `j "z"` rather than the one pair printed |
| Text.SplitJoin | gtfez/__init__.py:56 | joining parts that do not contain a borderless separator and splitting again gives the parts back |
| Text.JoinSplit | gtfez/__init__.py:40 | splitting and joining again gives the original text |
| Text.SplitLastPart | gtfez/add_gene_names.py:34 | a text with several parts ends with a separator followed by its last part |
| Text.SplitLastNonEmpty | gtfez/add_gene_names.py:34-35 | a text that does not end with the separator never splits into several parts with an empty last part |
| Text.Strip | gtfez/__init__.py:40 | only surrounding whitespace is removed: the result is a contiguous piece of the text, every character cut from either end is whitespace, and the result neither starts nor ends with whitespace |
| Decimal.TrimShape | gtfez/__init__.py:45-46 | `int()` cuts only its own whitespace (Python's whitespace set without U+001C to U+001F) from the two ends of the text |
| Decimal.ParseInt | gtfez/__init__.py:45-46 | `int()` accepts a text exactly when, after that whitespace is cut, it is an optional `+` or `-` followed by ASCII digits with single underscores between digits, at most 4300 digits in all; the value is that of the digits, underscores skipped, negated after a `-` |
| Decimal.SeparatorNotSkipped | gtfez/__init__.py:45-46 | a number preceded by one of U+001C to U+001F is rejected, although `str.strip()` would remove that character |
| Decimal.IntToString | gtfez/__init__.py:56-58 | `str(n)` is a `-` exactly for a negative `n`, followed by decimal digits without leading zeros, and its value as a signed digit string is `n` |
| Decimal.ParseIntToString | gtfez/__init__.py:45-58 | `int(str(n)) == n` for every integer whose decimal form has at most 4300 digits, the integers `str()` prints by default |
| Decimal.DotIsNotANumber | gtfez/__init__.py:49 | `int(".")` raises `ValueError` |
| Records.Fields | gtfez/__init__.py:40 | `line.strip().split("\t")` has at least one column, and the columns joined by tabs give back the stripped line |
| Records.ParseRecord | gtfez/__init__.py:38-52 | a line parses exactly when it has at least nine tab-separated columns, integer start and end, and a parsable attributes column; any failure is a `ParsingError` |
| Records.ParsedColumns | gtfez/__init__.py:40-50 | each column of the line lands in the record field of the same position |
| Records.ExtraColumnsIgnored | gtfez/__init__.py:40-50 | lines that agree on their first nine columns parse alike |
| Records.PrintedColumns | gtfez/__init__.py:54-71 | a printable record's printed line splits into exactly its nine columns, so an edit to a field shows in that column only (tests/test_parsing.py:136-148) |
| Records.PrintRecord | gtfez/__init__.py:54-71 | a printable record prints to a line whose tab-separated columns are exactly the record's nine columns |
| Records.RecordRoundTrip | gtfez/__init__.py:38-71 | a printable record (no tab in a text column, first column not starting with whitespace, canonical attributes, start and end within 4300 digits) prints to a line that parses back to the same record |
| Records.LineRoundTrip | gtfez/__init__.py:38-71 | a line in canonical form (stripped, nine columns, start and end as `str` prints them, attributes as `AttributesDict` prints them) parses, and printing the result reproduces the line |
| Records.ParseRecordIntFrame | gtfez/__init__.py:38-52 | the parser as written accepts a line exactly when the corrected parser does and the frame column is an integer; it then yields the same record with the frame replaced by `str(int(frame))`; any failure is a `ParsingError` |
| Records.DotFrameRejectedAsWritten | gtfez/__init__.py:49 | the parser as written rejects every line whose frame is `.` |
| Records.DotFrameKept | gtfez/__init__.py:38-52 | with the frame kept as text, a line whose frame is `.` and whose other columns are well formed is accepted, keeps the `.` for printing, and is the very line the code as written rejects (tests/test_parsing.py:132) |
| CleanupNcbi.RestrictMembers | gtfez/cleanup_ncbi.py:54-56 | exactly the pairs with an allowed key are kept |
| CleanupNcbi.RestrictGet | gtfez/cleanup_ncbi.py:54-56 | an allowed key reads as before the filtering; any other key raises `KeyError` |
| CleanupNcbi.RestrictUnique | gtfez/cleanup_ncbi.py:54-56 | filtering keeps keys unique |
| CleanupNcbi.DeleteAll | gtfez/cleanup_ncbi.py:55-56 | deleting keys one by one fails only with `KeyError`; on success, one pair is gone per key and every remaining pair was already there |
| CleanupNcbi.DeleteAllRestrict | gtfez/cleanup_ncbi.py:54-56 | deleting the disallowed keys one by one, in any order, never fails and leaves exactly the allowed pairs in their order |
| CleanupNcbi.FixRecord | gtfez/cleanup_ncbi.py:28-60 | only the attributes column changes, and unique keys stay unique |
| CleanupNcbi.FixRecordGet | gtfez/cleanup_ncbi.py:28-60 | `gene_name` becomes `gene` when `gene` is allowed and present; every other key keeps its value if allowed and is gone otherwise |
| CleanupNcbi.FixRecordKeys | gtfez/cleanup_ncbi.py:54-58 | no key outside the allowed list survives, except a `gene_name` copied from an allowed `gene` |
| CleanupNcbi.FixRecordIdempotent | gtfez/cleanup_ncbi.py:28-60 | cleaning a cleaned record changes nothing, whatever the allowed list |
| CleanupNcbi.DealWithMito | gtfez/cleanup_ncbi.py:63-99 | a record that is not a `gene` yields nothing; a `gene` record yields three records or a `KeyError` |
| CleanupNcbi.DealWithMitoSucceeds | gtfez/cleanup_ncbi.py:71-89 | a `gene` record is expanded exactly when it has `gene`, `gene_biotype` and `transcript_id` |
| CleanupNcbi.MitoRecords | gtfez/cleanup_ncbi.py:71-94 | the gene record has `gene_name` set to `MT-<gene>` and `transcript_id` removed; the transcript has `gene_name` and `transcript_id` set to `MT-<gene>` and `gene_biotype` moved to `transcript_biotype`; the exon is the transcript relabelled; all other columns are the input's |
| CleanupNcbi.Route | gtfez/cleanup_ncbi.py:103-111 | the only exception one item can raise is `KeyError` |
| CleanupNcbi.RouteCases | gtfez/cleanup_ncbi.py:103-111 | comments pass through; a `Gnomon` record yields its cleaned self; a `RefSeq` record yields three records or none; other sources yield nothing; only a `RefSeq` gene can fail |
| CleanupNcbi.RunSteps | gtfez/cleanup_ncbi.py:103-111 | the loop over the items, for any per-item step: an exception that ends it is one that some item's step raises |
| CleanupNcbi.StepsConcat | gtfez/cleanup_ncbi.py:103-111 | for any per-item step, the loop over a concatenation runs the first part, then the second unless the first raised |
| CleanupNcbi.StepsComplete | gtfez/cleanup_ncbi.py:103-111 | for any per-item step, the loop finishes exactly when no step raises |
| CleanupNcbi.Cleanup | gtfez/cleanup_ncbi.py:102-111 | the only exception that can end the run is `KeyError` |
| CleanupNcbi.CleanupCompletes | gtfez/cleanup_ncbi.py:102-111 | the run finishes exactly when no item raises |
| CleanupNcbi.CleanupOne | gtfez/cleanup_ncbi.py:103-111 | a one-item stream writes what that item's branch writes, or nothing and the item's `KeyError` |
| CleanupNcbi.CleanupConcat | gtfez/cleanup_ncbi.py:102-111 | output is produced item by item in input order, and an exception stops the run |
| GeneNames.CollectLastWins | gtfez/add_gene_names.py:33-36 | assigning entries in order leaves every key present, holding the value of its last entry |
| GeneNames.LineEntry | gtfez/add_gene_names.py:34-36 | a table line contributes its pair exactly when it has two columns |
| GeneNames.SecondColumnNeverEmpty | gtfez/add_gene_names.py:35 | after stripping, the last column is never empty, so the `fields[1] != ""` test rejects nothing |
| GeneNames.TableToDict | gtfez/add_gene_names.py:16-37 | the table maps every first column of a two-column line to the second column of the last such line |
| GeneNames.AnnotateRecord | gtfez/add_gene_names.py:87-92 | only the attributes column changes, and unique keys stay unique |
| GeneNames.AnnotateGet | gtfez/add_gene_names.py:87-92 | the name attribute becomes the table's entry for the record's ID exactly when the ID attribute exists and the table has it; every other attribute reads as before |
| GeneNames.AnnotateToMap | gtfez/add_gene_names.py:87-92 | in the map view, annotation is one update or nothing |
| GeneNames.AnnotateIdempotent | gtfez/add_gene_names.py:87-92 | annotating twice equals annotating once when the name key differs from the ID key |
| GeneNames.AddGeneNames | gtfez/add_gene_names.py:79-94 | one output item per input item, in order; comments unchanged; each record replaced by its annotation, with at most its attributes changed |
| GeneSymbols.StrictEntry | gtfez/add_gene_symbols.py:26-30 | a line contributes its first two columns exactly when it has at least two, and otherwise raises |
| GeneSymbols.TableToDict | gtfez/add_gene_symbols.py:8-31 | `ParsingError` exactly when some line has fewer than two columns; otherwise every first column maps to the second column of its last line |
| GeneSymbols.AssignAll | gtfez/add_gene_symbols.py:25-30 | the loop stops at the first line without an entry; otherwise the last entry for each key wins |
| GeneSymbols.TablesAgree | gtfez/add_gene_symbols.py:26-30 | on a table of two-column lines, the strict and the lenient readers see the same entries |
| GeneSymbols.ExtraColumns | gtfez/add_gene_symbols.py:26-30 | a line with three or more columns is skipped by the lenient reader and read by the strict one |
| GeneSymbols.AddGeneSymbols | gtfez/add_gene_symbols.py:73-88 | one output item per input item; comments unchanged; each record gets the same annotation step as `add_gene_names` |

## Left out

- File and stream I/O, `argparse` and `main` are not modelled. `print` is
  modelled as the list of items written.
- `gtfez.parse` is not part of this model. Only the `Item` it yields, a
  comment string or a `Record`, is modelled.
- `ParsingError.__str__` and all message texts are left out. Errors are
  modelled by kind only.
- `fix_mito_record` is left out because it is an empty stub.
- `deepcopy` and in-place mutation are left out. The model returns new
  values, so aliasing cannot arise.
- Python's `\w` and `int()` also accept non-ASCII Unicode letters and
  digits. The model accepts ASCII only (`IsWordChar`, `IsDigit`).
- `str.strip` uses Python's full whitespace set, listed in `IsSpace`.
  `int()` skips that set less U+001C to U+001F (`IsIntSpace`).
- Decimal.ParseInt: the digit limit is modelled at Python's default of 4300.
  A limit changed with `sys.set_int_max_str_digits` or
  `PYTHONINTMAXSTRDIGITS`, and Pythons before 3.11 that have no limit, are
  not modelled. Non-ASCII digits are not accepted (see above).
- Decimal.IntToString: `str()` raises `ValueError` for an integer with more
  than 4300 digits. The model always prints; instead, `Printable` and
  `ParseIntToString` require `WithinDigitLimit`.
- Decimal.ParseIntToString: the round trip is claimed only within the
  4300-digit limit, because beyond it `str()` raises and there is nothing
  to parse.
- Records.ParseRecord: the frame is kept as text, following the record's
  own annotation (`frame: str`) and tests/test_parsing.py:132. The code as
  written, modelled as `ParseRecordIntFrame`, applies `int()` to it (see
  Findings).
- Records.RecordRoundTrip: the round trip is only claimed for records whose
  text columns hold no tab, whose first column does not start with
  whitespace, and whose attributes are canonical. Outside those conditions
  the code itself does not round trip.
- Attributes.Parse: it follows the code, which splits on every `"; "`,
  including one inside quotes. It also rejects empty values, because of
  `(.+)`. tests/test_parsing.py:101-122 expects both to parse. The model
  follows the code and proves the rejections
  (`QuotedSeparatorRejected`, `EmptyValueRejected`). A value with `"; "`
  inside can also parse successfully, to a different dictionary with more
  pairs (`QuotedSeparatorReparsed`).
- Attributes.Get: the model does not treat the dictionary as hashed.
  Lookups act on the first pair with the key. Every dictionary the code
  builds has unique keys (`Parse`, `Set`, `Delete`, `RestrictUnique`), so
  the two readings agree.
- GeneSymbols.TableToDict: the contract states which lines raise through
  `StrictEntry`. `StrictEntry` is `None` exactly for a line with fewer than
  two columns.
- The table readers return a map. Python's dict also remembers insertion
  order, but neither script uses it.

## Findings

| source | as written | input that shows it | evidently intended | confidence | as-written member | corrected member |
|---|---|---|---|---|---|---|
| gtfez/__init__.py:49 | `self.frame = int(fields[7])` raises `ValueError` on `.`, which becomes a `ParsingError` | the sample line of tests/test_parsing.py:52-56, whose frame column is `.` | keep the frame as text (`frame: str`, line 31), so that `.` is accepted and printed back (tests/test_parsing.py:132) | not executed | Records.DotFrameRejectedAsWritten | Records.DotFrameKept |

=== FILE: attributes.dfy ===
/** The attributes column of a GTF line (`AttributesDict`,
    gtfez/__init__.py:74-120): an ordered dictionary with its own micro-grammar
    `key "value"; key "value";`.

    The dictionary is a sequence of pairs. Every operation acts on the first
    pair with the given key; `UniqueKeys` is an invariant that parsing,
    `Set` and `Delete` preserve, so for every dictionary the code can build
    "the first pair" is "the pair".
 */
module Attributes {
  import opened Results
  import opened Text

  type AttrList = seq<(string, string)>

  /** What `__init__` splits the column on. */
  const Separator: string := "; "

  /** `iter(d)` (`__iter__`, line 113-114): the keys in insertion order,
      one per pair. */
  function Keys(d: AttrList): (ks: seq<string>)
    ensures |ks| == |d|
  {
    seq(|d|, i requires 0 <= i < |d| => d[i].0)
  }

  predicate UniqueKeys(d: AttrList) {
    forall i, j :: 0 <= i < j < |d| ==> d[i].0 != d[j].0
  }

  /** Position of the first pair with key `k`, or -1. */
  function IndexOf(d: AttrList, k: string): (i: int)
    ensures -1 <= i < |d|
    ensures i >= 0 ==> d[i].0 == k && forall j :: 0 <= j < i ==> d[j].0 != k
    ensures i < 0 ==> forall j :: 0 <= j < |d| ==> d[j].0 != k
    ensures i < 0 <==> k !in Keys(d)
  {
    if |d| == 0 then -1
    else if d[0].0 == k then
      assert Keys(d)[0] == k;
      0
    else
      var j := IndexOf(d[1..], k);
      if j < 0 then -1
      else
        assert Keys(d)[j + 1] == k;
        j + 1
  }

  /** Iterating yields no key twice exactly when the keys are unique. */
  lemma KeysUnique(d: AttrList)
    ensures UniqueKeys(d) <==> forall i, j :: 0 <= i < j < |Keys(d)| ==> Keys(d)[i] != Keys(d)[j]
  {
    var ks := Keys(d);
    assert forall i :: 0 <= i < |d| ==> ks[i] == d[i].0;
  }

  lemma KeysMember(d: AttrList, k: string)
    ensures k in Keys(d) <==> exists j :: 0 <= j < |d| && d[j].0 == k
  {
    if exists j :: 0 <= j < |d| && d[j].0 == k {
      var j :| 0 <= j < |d| && d[j].0 == k;
      assert Keys(d)[j] == k;
    }
  }

  /** The first position holding `k` is `IndexOf`. */
  lemma IndexOfFirst(d: AttrList, k: string, i: int)
    requires 0 <= i < |d| && d[i].0 == k
    requires forall j :: 0 <= j < i ==> d[j].0 != k
    ensures IndexOf(d, k) == i
  {
    KeysMember(d, k);
  }

  /** `attributes[k]` (`__getitem__`, line 107-108). */
  function Get(d: AttrList, k: string): (r: Result<string>)
    ensures r.Ok? <==> k in Keys(d)
    ensures r.Err? ==> r.error == KeyError
    ensures r.Ok? ==> (k, r.value) in d
    ensures UniqueKeys(d) ==> forall v :: (k, v) in d <==> r == Ok(v)
  {
    var i := IndexOf(d, k);
    if i < 0 then Err(KeyError) else Ok(d[i].1)
  }

  /** `attributes[k] = v` (`__setitem__`, line 104-105, on an OrderedDict):
      an existing key is updated where it stands, a new key goes last. */
  function Set(d: AttrList, k: string, v: string): (r: AttrList)
    ensures Get(r, k) == Ok(v)
    ensures forall k' :: k' != k ==> Get(r, k') == Get(d, k')
    ensures k in Keys(d) ==> |r| == |d| && Keys(r) == Keys(d)
    ensures k in Keys(d) ==> forall j :: 0 <= j < |d| && d[j].0 != k ==> r[j] == d[j]
    ensures k !in Keys(d) ==> r == d + [(k, v)]
    ensures forall p :: p in r ==> p in d || p == (k, v)
    ensures UniqueKeys(d) ==> UniqueKeys(r)
  {
    var i := IndexOf(d, k);
    var r := if i < 0 then d + [(k, v)] else d[i := (k, v)];
    SetFacts(d, k, v, i, r);
    r
  }

  lemma SetFacts(d: AttrList, k: string, v: string, i: int, r: AttrList)
    requires i == IndexOf(d, k)
    requires r == if i < 0 then d + [(k, v)] else d[i := (k, v)]
    ensures Get(r, k) == Ok(v)
    ensures forall k' :: k' != k ==> Get(r, k') == Get(d, k')
    ensures i >= 0 ==> |r| == |d| && Keys(r) == Keys(d)
    ensures forall p :: p in r ==> p in d || p == (k, v)
    ensures UniqueKeys(d) ==> UniqueKeys(r)
  {
    var n := if i < 0 then |d| else i;
    assert r[n] == (k, v);
    IndexOfFirst(r, k, n);
    forall k' | k' != k
      ensures Get(r, k') == Get(d, k')
    {
      SetOther(d, k, v, i, r, k');
    }
    if i >= 0 {
      assert Keys(r) == Keys(d);
    }
    SetMembers(d, k, v, i, r);
    SetUnique(d, k, v, i, r);
  }

  lemma SetOther(d: AttrList, k: string, v: string, i: int, r: AttrList, k': string)
    requires i == IndexOf(d, k)
    requires r == if i < 0 then d + [(k, v)] else d[i := (k, v)]
    requires k' != k
    ensures Get(r, k') == Get(d, k')
  {
    var i' := IndexOf(d, k');
    if i' >= 0 {
      IndexOfFirst(r, k', i');
    } else {
      assert forall j :: 0 <= j < |r| ==> r[j].0 != k' by {
        forall j | 0 <= j < |r| ensures r[j].0 != k' {
          if j < |d| && j != i { assert r[j] == d[j]; }
        }
      }
      KeysMember(r, k');
    }
  }

  lemma SetMembers(d: AttrList, k: string, v: string, i: int, r: AttrList)
    requires -1 <= i < |d|
    requires r == if i < 0 then d + [(k, v)] else d[i := (k, v)]
    ensures forall p :: p in r ==> p in d || p == (k, v)
  {
    var n := if i < 0 then |d| else i;
    forall p | p in r
      ensures p in d || p == (k, v)
    {
      var j :| 0 <= j < |r| && r[j] == p;
      if j != n { assert d[j] == p; }
    }
  }

  lemma SetUnique(d: AttrList, k: string, v: string, i: int, r: AttrList)
    requires i == IndexOf(d, k)
    requires r == if i < 0 then d + [(k, v)] else d[i := (k, v)]
    ensures UniqueKeys(d) ==> UniqueKeys(r)
  {
    if UniqueKeys(d) {
      forall a, b | 0 <= a < b < |r|
        ensures r[a].0 != r[b].0
      {
        if i < 0 {
          if b == |d| { assert r[a] == d[a]; } else { assert r[a] == d[a] && r[b] == d[b]; }
        } else {
          assert r[a].0 == d[a].0 && r[b].0 == d[b].0;
        }
      }
    }
  }

  /** `del attributes[k]` (`__delitem__`, line 110-111). */
  function Delete(d: AttrList, k: string): (r: Result<AttrList>)
    ensures r.Err? <==> k !in Keys(d)
    ensures r.Err? ==> r.error == KeyError
    ensures r.Ok? ==> |r.value| == |d| - 1
    ensures r.Ok? ==> exists i :: 0 <= i < |d| && d[i].0 == k && r.value == d[..i] + d[i + 1..]
    ensures r.Ok? && UniqueKeys(d) ==>
      && UniqueKeys(r.value)
      && k !in Keys(r.value)
      && forall k' :: k' != k ==> Get(r.value, k') == Get(d, k')
  {
    var i := IndexOf(d, k);
    if i < 0 then Err(KeyError)
    else
      var r := d[..i] + d[i + 1..];
      assert d[i].0 == k && r == d[..i] + d[i + 1..];
      DeleteFacts(d, k, i, r);
      Ok(r)
  }

  lemma DeleteFacts(d: AttrList, k: string, i: int, r: AttrList)
    requires 0 <= i < |d| && i == IndexOf(d, k)
    requires r == d[..i] + d[i + 1..]
    ensures UniqueKeys(d) ==>
      && UniqueKeys(r)
      && k !in Keys(r)
      && forall k' :: k' != k ==> Get(r, k') == Get(d, k')
  {
    if UniqueKeys(d) {
      forall a, b | 0 <= a < b < |r|
        ensures r[a].0 != r[b].0
      {
        RemovedAt(d, i, r, a);
        RemovedAt(d, i, r, b);
      }
      forall j | 0 <= j < |r|
        ensures r[j].0 != k
      {
        RemovedAt(d, i, r, j);
      }
      KeysMember(r, k);
      forall k' | k' != k
        ensures Get(r, k') == Get(d, k')
      {
        DeleteKeepsOther(d, k, i, r, k');
      }
    }
  }

  lemma RemovedAt(d: AttrList, i: int, r: AttrList, j: int)
    requires 0 <= i < |d| && r == d[..i] + d[i + 1..]
    requires 0 <= j < |r|
    ensures r[j] == d[if j < i then j else j + 1]
  {
  }

  lemma DeleteKeepsOther(d: AttrList, k: string, i: int, r: AttrList, k': string)
    requires UniqueKeys(d)
    requires 0 <= i < |d| && i == IndexOf(d, k)
    requires r == d[..i] + d[i + 1..]
    requires k' != k
    ensures Get(r, k') == Get(d, k')
  {
    var i' := IndexOf(d, k');
    if i' >= 0 {
      var n := if i' < i then i' else i' - 1;
      RemovedAt(d, i, r, n);
      forall j | 0 <= j < n
        ensures r[j].0 != k'
      {
        RemovedAt(d, i, r, j);
      }
      IndexOfFirst(r, k', n);
    } else {
      forall j | 0 <= j < |r|
        ensures r[j].0 != k'
      {
        RemovedAt(d, i, r, j);
      }
      KeysMember(r, k');
    }
  }

  /** The pairs viewed as a plain map, later pairs winning: the meaning of
      the dictionary independent of its order. */
  function ToMap(d: AttrList): map<string, string> {
    if |d| == 0 then map[]
    else ToMap(d[..|d| - 1])[d[|d| - 1].0 := d[|d| - 1].1]
  }

  /** `Get` and membership are lookups in `ToMap`, key by key. */
  lemma {:induction false} ToMapKey(d: AttrList, x: string)
    requires UniqueKeys(d)
    ensures x in ToMap(d) <==> x in Keys(d)
    ensures x in ToMap(d) ==> Get(d, x) == Ok(ToMap(d)[x])
  {
    if |d| > 0 {
      var n := |d| - 1;
      var e, p := d[..n], d[n];
      assert d == e + [p];
      KeysSnoc(e, p, x);
      if x == p.0 {
        GetLast(d);
      } else {
        assert UniqueKeys(e);
        ToMapKey(e, x);
        GetSnoc(e, p, x);
      }
    }
  }

  lemma KeysSnoc(e: AttrList, p: (string, string), x: string)
    ensures x in Keys(e + [p]) <==> x in Keys(e) || x == p.0
  {
    var d := e + [p];
    KeysMember(d, x);
    KeysMember(e, x);
    if x in Keys(e) {
      var j :| 0 <= j < |e| && e[j].0 == x;
      assert d[j].0 == x;
    }
    if x in Keys(d) && x != p.0 {
      var j :| 0 <= j < |d| && d[j].0 == x;
      assert e[j].0 == x;
    }
    assert d[|e|] == p;
  }

  /** With unique keys, the last pair's key finds the last pair. */
  lemma GetLast(d: AttrList)
    requires UniqueKeys(d) && |d| > 0
    ensures Get(d, d[|d| - 1].0) == Ok(d[|d| - 1].1)
  {
    assert d[|d| - 1] in d;
  }

  /** Appending a pair with another key leaves a lookup alone. */
  lemma GetSnoc(e: AttrList, p: (string, string), x: string)
    requires p.0 != x
    ensures Get(e + [p], x) == Get(e, x)
  {
    var d := e + [p];
    var i := IndexOf(e, x);
    if i >= 0 {
      assert d[i] == e[i];
      IndexOfFirst(d, x, i);
    } else {
      assert forall j :: 0 <= j < |d| ==> d[j].0 != x by {
        forall j | 0 <= j < |d| ensures d[j].0 != x {
          if j < |e| { assert d[j] == e[j]; }
        }
      }
      KeysMember(d, x);
    }
  }

  /** `ToMapKey` phrased through `Get`'s success instead of key membership,
      the form the annotation proofs use. */
  lemma ToMapGet(d: AttrList, x: string)
    requires UniqueKeys(d)
    ensures x in ToMap(d) <==> Get(d, x).Ok?
    ensures x in ToMap(d) ==> Get(d, x) == Ok(ToMap(d)[x])
  {
    ToMapKey(d, x);
  }

  /** Assignment is a map update. */
  lemma ToMapSet(d: AttrList, k: string, v: string)
    requires UniqueKeys(d)
    ensures ToMap(Set(d, k, v)) == ToMap(d)[k := v]
  {
    var i := IndexOf(d, k);
    var r := Set(d, k, v);
    if i < 0 {
      assert r == d + [(k, v)];
      assert r[..|r| - 1] == d;
    } else {
      assert r == d[i := (k, v)];
      ToMapUpdate(d, i, v);
    }
  }

  /** Overwriting the value of the last pair with its key is a map update. */
  lemma {:induction false} ToMapUpdate(d: AttrList, i: int, v: string)
    requires 0 <= i < |d|
    requires forall j :: i < j < |d| ==> d[j].0 != d[i].0
    ensures ToMap(d[i := (d[i].0, v)]) == ToMap(d)[d[i].0 := v]
  {
    var n := |d| - 1;
    var r := d[i := (d[i].0, v)];
    if i == n {
      assert r[..n] == d[..n];
    } else {
      assert r[..n] == d[..n][i := (d[i].0, v)];
      assert d[..n][i] == d[i];
      ToMapUpdate(d[..n], i, v);
      assert r[n] == d[n] && d[n].0 != d[i].0;
    }
  }

  /** Lookup scans from the front. */
  lemma GetCons(d: AttrList, k: string)
    requires |d| > 0
    ensures Get(d, k) == if d[0].0 == k then Ok(d[0].1) else Get(d[1..], k)
  {
    if d[0].0 == k {
      IndexOfFirst(d, k, 0);
    } else {
      var j := IndexOf(d[1..], k);
      if j >= 0 {
        IndexOfFirst(d, k, j + 1);
      } else {
        KeysMember(d, k);
        forall i | 0 <= i < |d|
          ensures d[i].0 != k
        {
          if i > 0 {
            assert d[i] == d[1..][i - 1];
          }
        }
      }
    }
  }

  /** Assigning a key the value it already has changes nothing. */
  lemma SetSame(d: AttrList, k: string, v: string)
    requires Get(d, k) == Ok(v)
    ensures Set(d, k, v) == d
  {
    var i := IndexOf(d, k);
    assert d[i] == (k, v);
  }

  /** Deletion is removal from the map. */
  lemma ToMapDelete(d: AttrList, k: string)
    requires UniqueKeys(d)
    requires k in Keys(d)
    ensures ToMap(Delete(d, k).value) == ToMap(d) - {k}
  {
    var r := Delete(d, k).value;
    var m := ToMap(d) - {k};
    forall x
      ensures x in ToMap(r) <==> x in m
      ensures x in m ==> ToMap(r)[x] == m[x]
    {
      ToMapDeleteKey(d, k, x);
    }
  }

  lemma ToMapDeleteKey(d: AttrList, k: string, x: string)
    requires UniqueKeys(d)
    requires k in Keys(d)
    ensures x in ToMap(Delete(d, k).value) <==> x in ToMap(d) && x != k
    ensures x in ToMap(Delete(d, k).value) ==> ToMap(Delete(d, k).value)[x] == ToMap(d)[x]
  {
    var r := Delete(d, k).value;
    assert UniqueKeys(r) && k !in Keys(r);
    ToMapGet(d, x);
    ToMapGet(r, x);
    if x != k {
      assert Get(r, x) == Get(d, x);
    }
  }

  // ---------------------------------------------------------------------
  // The micro-grammar

  /** `\w+`: a non-empty run of word characters. */
  predicate ValidKey(k: string) {
    |k| > 0 && forall i :: 0 <= i < |k| ==> IsWordChar(k[i])
  }

  /** `.+`: a non-empty run of characters other than a newline. */
  predicate MatchesValue(v: string) {
    |v| > 0 && '\n' !in v
  }

  /** `key "value"` */
  function Token(k: string, v: string): string {
    k + " \"" + v + "\""
  }

  function Tokens(d: AttrList): seq<string> {
    seq(|d|, i requires 0 <= i < |d| => Token(d[i].0, d[i].1))
  }

  /** `str(attributes)` (`__str__`, line 119-120): each pair as `k "v";`,
      joined by one space. */
  function Print(d: AttrList): (s: string)
    ensures |d| == 0 ==> s == ""
    ensures |d| > 0 ==> s == Join(Tokens(d), Separator) + ";"
  {
    var s := Join(seq(|d|, i requires 0 <= i < |d| => Token(d[i].0, d[i].1) + ";"), " ");
    if |d| > 0 then PrintShape(d); s else s
  }

  lemma {:induction false} PrintShape(d: AttrList)
    requires |d| > 0
    ensures Join(seq(|d|, i requires 0 <= i < |d| => Token(d[i].0, d[i].1) + ";"), " ")
         == Join(Tokens(d), Separator) + ";"
  {
    var ends := seq(|d|, i requires 0 <= i < |d| => Token(d[i].0, d[i].1) + ";");
    if |d| > 1 {
      PrintShape(d[1..]);
      assert ends[1..] == seq(|d[1..]|, i requires 0 <= i < |d[1..]| => Token(d[1..][i].0, d[1..][i].1) + ";");
      assert Tokens(d)[1..] == Tokens(d[1..]);
    }
  }

  /** Length of the leading run of word characters. */
  function WordPrefix(s: string): (n: nat)
    ensures n <= |s|
    ensures forall i :: 0 <= i < n ==> IsWordChar(s[i])
    ensures n < |s| ==> !IsWordChar(s[n])
  {
    if |s| > 0 && IsWordChar(s[0]) then 1 + WordPrefix(s[1..]) else 0
  }

  lemma {:induction false} WordPrefixOf(k: string, rest: string)
    requires forall i :: 0 <= i < |k| ==> IsWordChar(k[i])
    requires |rest| > 0 && !IsWordChar(rest[0])
    ensures WordPrefix(k + rest) == |k|
  {
    if |k| > 0 {
      assert (k + rest)[1..] == k[1..] + rest;
      WordPrefixOf(k[1..], rest);
    }
  }

  /** `^(\w+) "(.+)"` matched against the whole of `tok`. The key is the
      maximal word-character prefix, since a space must follow it, so the
      match is unique. */
  function MatchToken(tok: string): (r: Option<(string, string)>)
    ensures r.Some? ==> ValidKey(r.value.0) && MatchesValue(r.value.1) && tok == Token(r.value.0, r.value.1)
  {
    var n := WordPrefix(tok);
    if 0 < n && n + 4 <= |tok| && tok[n] == ' ' && tok[n + 1] == '"' && tok[|tok| - 1] == '"'
       && '\n' !in tok[n + 2..|tok| - 1]
    then
      var k := tok[..n];
      var v := tok[n + 2..|tok| - 1];
      assert tok == Token(k, v);
      Some((k, v))
    else None
  }

  /** `_attribute_re.match(tok)` (line 91, 98): Python's `$` matches at the
      end of the text or just before one final newline. */
  function MatchAttribute(tok: string): (r: Option<(string, string)>)
    ensures r.Some? ==> ValidKey(r.value.0) && MatchesValue(r.value.1)
    ensures r.Some? ==> tok == Token(r.value.0, r.value.1) || tok == Token(r.value.0, r.value.1) + "\n"
  {
    if |tok| > 0 && tok[|tok| - 1] == '\n' then
      assert tok == tok[..|tok| - 1] + "\n";
      MatchToken(tok[..|tok| - 1])
    else MatchToken(tok)
  }

  /** Every well-formed token is matched, and yields its own key and value. */
  lemma MatchAttributeOf(k: string, v: string)
    requires ValidKey(k) && MatchesValue(v)
    ensures MatchAttribute(Token(k, v)) == Some((k, v))
    ensures MatchAttribute(Token(k, v) + "\n") == Some((k, v))
  {
    var tok := Token(k, v);
    WordPrefixOf(k, " \"" + v + "\"");
    assert tok == k + (" \"" + v + "\"");
    assert tok[|k| + 2..|tok| - 1] == v;
    assert tok[..|k|] == k;
    assert (tok + "\n")[..|tok + "\n"| - 1] == tok;
  }

  /** A token with anything after its closing quote (other than a single
      newline) is not matched. */
  lemma TrailingJunkRejected(k: string, v: string, junk: string)
    requires |junk| > 0 && junk[|junk| - 1] != '"' && junk[|junk| - 1] != '\n'
    ensures MatchAttribute(Token(k, v) + junk) == None
  {
    var tok := Token(k, v) + junk;
    assert tok[|tok| - 1] == junk[|junk| - 1];
  }

  /** `""` does not match `(.+)`: an empty value is rejected. */
  lemma EmptyValueRejected(k: string)
    requires ValidKey(k)
    ensures MatchAttribute(Token(k, "")) == None
  {
    var tok := Token(k, "");
    WordPrefixOf(k, " \"\"");
    assert tok == k + " \"\"";
  }

  // ---------------------------------------------------------------------
  // Parsing

  /** The tokens `__init__` matches: every trailing `;` stripped, then split
      on `"; "` (line 97). */
  function FieldTokens(field: string): seq<string> {
    Split(RStripChar(field, ';'), Separator)
  }

  /** The loop of line 97-102: each token is matched and assigned in turn;
      the first token that does not match aborts with `ParsingError`. */
  function Build(acc: AttrList, toks: seq<string>): (r: Result<AttrList>)
    ensures r.Ok? <==> forall i :: 0 <= i < |toks| ==> MatchAttribute(toks[i]).Some?
    ensures r.Err? ==> r.error == ParsingError
    ensures r.Ok? && UniqueKeys(acc) ==> UniqueKeys(r.value)
    ensures r.Ok? && |toks| > 0 ==> |r.value| > 0
    decreases |toks|
  {
    if |toks| == 0 then Ok(acc)
    else
      match MatchAttribute(toks[0])
      case None => Err(ParsingError)
      case Some(kv) =>
        var r := Build(Set(acc, kv.0, kv.1), toks[1..]);
        assert forall i :: 1 <= i < |toks| ==> toks[i] == toks[1..][i - 1];
        r
  }

  /** `AttributesDict(field)` (line 93-102). */
  function Parse(field: string): (r: Result<AttrList>)
    ensures r.Ok? <==> forall i :: 0 <= i < |FieldTokens(field)| ==> MatchAttribute(FieldTokens(field)[i]).Some?
    ensures r.Err? ==> r.error == ParsingError
    ensures r.Ok? ==> UniqueKeys(r.value) && |r.value| > 0
  {
    Build([], FieldTokens(field))
  }

  /** Every pair of a dictionary that printing and parsing reproduce. */
  predicate EntriesValid(d: AttrList) {
    forall i :: 0 <= i < |d| ==> ValidKey(d[i].0) && MatchesValue(d[i].1) && !Contains(d[i].1, Separator)
  }

  /** The dictionaries that survive a print/parse round trip. */
  predicate Canonical(d: AttrList) {
    UniqueKeys(d) && |d| > 0 && EntriesValid(d)
  }

  /** `key "` followed by separator-free text contains no separator. */
  lemma KeyQuoteWithout(k: string, a: string, tail: string)
    requires ValidKey(k) && !Contains(a, Separator)
    requires tail == "" || tail == "\""
    ensures !Contains(k + " \"" + a + tail, Separator)
  {
    var t := k + " \"" + a + tail;
    ContainsPair(t, ';', ' ');
    ContainsPair(a, ';', ' ');
  }

  lemma TokenWithout(k: string, v: string)
    requires ValidKey(k) && !Contains(v, Separator)
    ensures !Contains(Token(k, v), Separator)
  {
    KeyQuoteWithout(k, v, "\"");
  }

  /** Parsing the printed tokens of fresh, well-formed pairs appends them. */
  lemma {:induction false} BuildTokens(acc: AttrList, e: AttrList)
    requires UniqueKeys(acc + e) && EntriesValid(e)
    ensures Build(acc, Tokens(e)) == Ok(acc + e)
    decreases |e|
  {
    if |e| > 0 {
      var p := e[0];
      assert ValidKey(p.0) && MatchesValue(p.1);
      MatchAttributeOf(p.0, p.1);
      assert Tokens(e)[0] == Token(p.0, p.1);
      assert MatchAttribute(Tokens(e)[0]) == Some(p);
      forall j | 0 <= j < |acc|
        ensures acc[j].0 != p.0
      {
        assert (acc + e)[j] == acc[j] && (acc + e)[|acc|] == p;
      }
      KeysMember(acc, p.0);
      assert Set(acc, p.0, p.1) == acc + [p];
      assert Tokens(e)[1..] == Tokens(e[1..]);
      assert acc + [p] + e[1..] == acc + e;
      assert UniqueKeys(acc + [p] + e[1..]);
      assert EntriesValid(e[1..]) by {
        forall j | 0 <= j < |e[1..]|
          ensures ValidKey(e[1..][j].0) && MatchesValue(e[1..][j].1) && !Contains(e[1..][j].1, Separator)
        {
          assert e[1..][j] == e[j + 1];
        }
      }
      BuildTokens(acc + [p], e[1..]);
      assert Build(acc, Tokens(e)) == Build(acc + [p], Tokens(e)[1..]);
    } else {
      assert Tokens(e) == [] && acc + e == acc;
    }
  }

  lemma {:induction false} BuildConcat(acc: AttrList, a: seq<string>, b: seq<string>)
    ensures Build(acc, a + b) == if Build(acc, a).Ok? then Build(Build(acc, a).value, b) else Build(acc, a)
    decreases |a|
  {
    if |a| > 0 {
      assert (a + b)[0] == a[0];
      assert (a + b)[1..] == a[1..] + b;
      if MatchAttribute(a[0]).Some? {
        var kv := MatchAttribute(a[0]).value;
        BuildConcat(Set(acc, kv.0, kv.1), a[1..], b);
      }
    } else {
      assert a + b == b;
    }
  }

  /** Splitting a printed dictionary recovers its tokens. */
  lemma PrintedTokens(d: AttrList)
    requires EntriesValid(d) && |d| > 0
    ensures FieldTokens(Print(d)) == Tokens(d)
    ensures FieldTokens(Join(Tokens(d), Separator)) == Tokens(d)
  {
    var body := Join(Tokens(d), Separator);
    var last := Token(d[|d| - 1].0, d[|d| - 1].1);
    if |d| > 1 {
      assert Tokens(d) == Tokens(d)[..|d| - 1] + [last];
      JoinSnoc(Tokens(d)[..|d| - 1], last, Separator);
    }
    assert body[|body| - 1] == '"';
    RStripCharAppend(body, ';');
    assert RStripChar(body, ';') == body;
    forall i | 0 <= i < |Tokens(d)|
      ensures !Contains(Tokens(d)[i], Separator)
    {
      TokenWithout(d[i].0, d[i].1);
    }
    SeparatorsBorderless();
    SplitJoin(Tokens(d), Separator);
  }

  /** Round trip: a canonical dictionary prints to a string that parses back
      to it, with or without the final `;`. */
  lemma ParsePrint(d: AttrList)
    requires Canonical(d)
    ensures Parse(Print(d)) == Ok(d)
    ensures Parse(Join(Tokens(d), Separator)) == Ok(d)
  {
    PrintedTokens(d);
    BuildTokens([], d);
    assert [] + d == d;
  }

  /** Parsing only ever yields pairs that print back unambiguously. */
  lemma {:induction false} BuildValid(acc: AttrList, toks: seq<string>)
    requires EntriesValid(acc)
    requires forall i :: 0 <= i < |toks| ==> !Contains(toks[i], Separator)
    requires Build(acc, toks).Ok?
    ensures EntriesValid(Build(acc, toks).value)
    decreases |toks|
  {
    if |toks| > 0 {
      var kv := MatchAttribute(toks[0]).value;
      var k, v := kv.0, kv.1;
      assert !Contains(v, Separator) by {
        if Contains(v, Separator) {
          ContainsPrepend(k + " \"", v, Separator);
          ContainsAppend(k + " \"" + v, "\"", Separator);
          assert k + " \"" + v + "\"" == Token(k, v);
          ContainsAppend(Token(k, v), "\n", Separator);
        }
      }
      var next := Set(acc, k, v);
      assert EntriesValid(next) by {
        forall i | 0 <= i < |next|
          ensures ValidKey(next[i].0) && MatchesValue(next[i].1) && !Contains(next[i].1, Separator)
        {
          assert next[i] in next;
        }
      }
      BuildValid(next, toks[1..]);
    }
  }

  /** Whatever parses is canonical, so printing a parsed dictionary and
      parsing again gives the same dictionary. */
  lemma ParseCanonical(field: string)
    requires Parse(field).Ok?
    ensures Canonical(Parse(field).value)
    ensures Parse(Print(Parse(field).value)) == Parse(field)
  {
    SplitPartsWithout(RStripChar(field, ';'), Separator);
    BuildValid([], FieldTokens(field));
    ParsePrint(Parse(field).value);
  }

  /** All trailing semicolons are stripped first, so one more changes nothing. */
  lemma ParseIgnoresTrailingSemicolon(field: string)
    ensures Parse(field + ";") == Parse(field)
  {
    RStripCharAppend(field, ';');
  }

  /** A key repeated later in the column keeps its first position and takes
      the later value. */
  lemma RepeatedKey(d: AttrList, i: int, w: string)
    requires Canonical(d) && 0 <= i < |d|
    requires MatchesValue(w) && !Contains(w, Separator)
    ensures Parse(Print(d + [(d[i].0, w)])) == Ok(d[i := (d[i].0, w)])
  {
    var k := d[i].0;
    ParsePrintSnoc(d, k, w);
    BuildOne(d, k, w);
    SetExisting(d, i, w);
  }

  /** Parsing a printed dictionary with one more pair is assigning that pair
      to the dictionary. */
  lemma ParsePrintSnoc(d: AttrList, k: string, w: string)
    requires Canonical(d) && ValidKey(k) && MatchesValue(w) && !Contains(w, Separator)
    ensures Parse(Print(d + [(k, w)])) == Build(d, [Token(k, w)])
  {
    var e := d + [(k, w)];
    EntriesValidSnoc(d, k, w);
    PrintedTokens(e);
    assert Tokens(e) == Tokens(d) + [Token(k, w)];
    BuildConcat([], Tokens(d), [Token(k, w)]);
    BuildTokens([], d);
    assert [] + d == d;
  }

  lemma EntriesValidSnoc(d: AttrList, k: string, w: string)
    requires EntriesValid(d) && ValidKey(k) && MatchesValue(w) && !Contains(w, Separator)
    ensures EntriesValid(d + [(k, w)])
  {
    var e := d + [(k, w)];
    forall j | 0 <= j < |e|
      ensures ValidKey(e[j].0) && MatchesValue(e[j].1) && !Contains(e[j].1, Separator)
    {
      if j < |d| { assert e[j] == d[j]; }
    }
  }

  lemma BuildOne(acc: AttrList, k: string, v: string)
    requires ValidKey(k) && MatchesValue(v)
    ensures Build(acc, [Token(k, v)]) == Ok(Set(acc, k, v))
  {
    MatchAttributeOf(k, v);
    assert [Token(k, v)][1..] == [];
  }

  lemma SetExisting(d: AttrList, i: int, v: string)
    requires UniqueKeys(d) && 0 <= i < |d|
    ensures Set(d, d[i].0, v) == d[i := (d[i].0, v)]
  {
    IndexOfFirst(d, d[i].0, i);
  }


  /** The keys of `ks` in the order they first occur, each once: the key
      order of an OrderedDict filled by assigning `ks` in turn. */
  function FirstOccurrences(ks: seq<string>): (r: seq<string>)
    ensures forall x :: x in r <==> x in ks
    ensures forall i, j :: 0 <= i < j < |r| ==> r[i] != r[j]
  {
    if |ks| == 0 then []
    else
      var e := FirstOccurrences(ks[..|ks| - 1]);
      var k := ks[|ks| - 1];
      assert forall x :: x in ks <==> x in ks[..|ks| - 1] || x == k by {
        assert ks == ks[..|ks| - 1] + [k];
      }
      if k in e then e else e + [k]
  }

  /** Every token matches: the condition for `Build` to succeed. */
  predicate AllMatch(toks: seq<string>) {
    forall i :: 0 <= i < |toks| ==> MatchAttribute(toks[i]).Some?
  }

  /** The pairs matched by tokens that all match, in token order. */
  function MatchedPairs(toks: seq<string>): (ps: AttrList)
    requires AllMatch(toks)
    ensures |ps| == |toks|
  {
    seq(|toks|, i requires 0 <= i < |toks| => MatchAttribute(toks[i]).value)
  }

  lemma KeysAppend(d: AttrList, p: (string, string))
    ensures Keys(d + [p]) == Keys(d) + [p.0]
  {
    assert forall i :: 0 <= i < |d| ==> (d + [p])[i] == d[i];
  }

  /** Assignment adds a key at the end exactly when it is new. */
  lemma KeysSet(d: AttrList, k: string, v: string)
    ensures Keys(Set(d, k, v)) == if k in Keys(d) then Keys(d) else Keys(d) + [k]
  {
    if k !in Keys(d) {
      KeysAppend(d, (k, v));
    }
  }

  /** One more matching token is one more assignment. */
  lemma BuildSnoc(acc: AttrList, toks: seq<string>, t: string)
    requires Build(acc, toks).Ok? && MatchAttribute(t).Some?
    ensures Build(acc, toks + [t]) ==
      Ok(Set(Build(acc, toks).value, MatchAttribute(t).value.0, MatchAttribute(t).value.1))
  {
    BuildConcat(acc, toks, [t]);
    assert [t][1..] == [];
  }

  /** For a column of matching tokens, whatever keys repeat and wherever:
      the keys come in the order of their first token, and in the map view
      each key holds the value of its last token. */
  lemma {:induction false} BuildLastWins(toks: seq<string>)
    requires AllMatch(toks)
    ensures Build([], toks).Ok?
    ensures Keys(Build([], toks).value) == FirstOccurrences(Keys(MatchedPairs(toks)))
    ensures ToMap(Build([], toks).value) == ToMap(MatchedPairs(toks))
    decreases |toks|
  {
    if |toks| > 0 {
      var n := |toks| - 1;
      var pre, t := toks[..n], toks[n];
      assert toks == pre + [t];
      MatchedSnoc(toks, pre, t);
      BuildLastWins(pre);
      var d := Build([], pre).value;
      var kv := MatchAttribute(t).value;
      BuildSnoc([], pre, t);
      KeysStep(d, MatchedPairs(pre), kv);
      MapStep(d, MatchedPairs(pre), kv);
    }
  }

  lemma MatchedSnoc(toks: seq<string>, pre: seq<string>, t: string)
    requires toks == pre + [t] && AllMatch(toks)
    ensures AllMatch(pre) && MatchAttribute(t).Some?
    ensures MatchedPairs(toks) == MatchedPairs(pre) + [MatchAttribute(t).value]
  {
    assert toks[|pre|] == t;
    assert AllMatch(pre) by {
      forall i | 0 <= i < |pre| ensures MatchAttribute(pre[i]).Some? {
        assert pre[i] == toks[i];
      }
    }
    var a, b := MatchedPairs(toks), MatchedPairs(pre) + [MatchAttribute(t).value];
    forall i | 0 <= i < |a|
      ensures a[i] == b[i]
    {
      if i < |pre| {
        assert toks[i] == pre[i];
      }
    }
  }

  lemma KeysStep(d: AttrList, qs: AttrList, kv: (string, string))
    requires Keys(d) == FirstOccurrences(Keys(qs))
    ensures Keys(Set(d, kv.0, kv.1)) == FirstOccurrences(Keys(qs + [kv]))
  {
    var ks := Keys(qs + [kv]);
    KeysAppend(qs, kv);
    assert ks[..|ks| - 1] == Keys(qs);
    KeysSet(d, kv.0, kv.1);
  }

  lemma MapStep(d: AttrList, qs: AttrList, kv: (string, string))
    requires UniqueKeys(d) && ToMap(d) == ToMap(qs)
    ensures ToMap(Set(d, kv.0, kv.1)) == ToMap(qs + [kv])
  {
    ToMapSet(d, kv.0, kv.1);
    assert (qs + [kv])[..|qs|] == qs;
  }

  /** `AttributesDict(field)` on a column that repeats keys: the first
      position of each key and the last value. */
  lemma ParseLastWins(field: string)
    requires Parse(field).Ok?
    ensures Keys(Parse(field).value) == FirstOccurrences(Keys(MatchedPairs(FieldTokens(field))))
    ensures ToMap(Parse(field).value) == ToMap(MatchedPairs(FieldTokens(field)))
  {
    BuildLastWins(FieldTokens(field));
  }

  /** The naive split cuts a quoted value that contains `"; "`: the column
      `k "a; b";` is rejected instead of giving the value `a; b`. */
  lemma QuotedSeparatorRejected(k: string, a: string, b: string)
    requires ValidKey(k) && !Contains(a, Separator)
    requires |a| == 0 || (a[|a| - 1] != '"' && a[|a| - 1] != '\n')
    ensures Parse(Print([(k, a + Separator + b)])).Err?
  {
    var toks := FieldTokens(Print([(k, a + Separator + b)]));
    SingleTokens(k, a + Separator + b);
    CutAtSeparator(k, a, b);
    HeadRejected(k, a);
    assert MatchAttribute(toks[0]) == None;
  }

  /** A value can also read as the end of one printed pair and the start of
      another, as `x"; j "z` does: then the column parses, but to two pairs
      instead of the one pair printed. */
  lemma QuotedSeparatorReparsed(k: string, x: string, j: string, z: string)
    requires Canonical([(k, x), (j, z)])
    ensures Parse(Print([(k, x + "\"" + Separator + j + " \"" + z)])) == Ok([(k, x), (j, z)])
  {
    var v := x + "\"" + Separator + j + " \"" + z;
    assert Token(k, v) == Token(k, x) + Separator + Token(j, z);
    assert Tokens([(k, v)]) == [Token(k, v)];
    assert Tokens([(k, x), (j, z)]) == [Token(k, x), Token(j, z)];
    assert Join([Token(k, x), Token(j, z)], Separator) == Token(k, x) + Separator + Token(j, z) by {
      assert [Token(k, x), Token(j, z)][1..] == [Token(j, z)];
    }
    ParsePrint([(k, x), (j, z)]);
  }

  lemma CutAtSeparator(k: string, a: string, b: string)
    requires ValidKey(k) && !Contains(a, Separator)
    ensures Split(Token(k, a + Separator + b), Separator)[0] == k + " \"" + a
  {
    var head := k + " \"" + a;
    assert Token(k, a + Separator + b) == head + Separator + (b + "\"");
    KeyQuoteWithout(k, a, "");
    assert head + "" == head;
    SeparatorsBorderless();
    SplitAt(head, b + "\"", Separator);
  }

  lemma SingleTokens(k: string, v: string)
    ensures FieldTokens(Print([(k, v)])) == Split(Token(k, v), Separator)
  {
    var tok := Token(k, v);
    assert Tokens([(k, v)]) == [tok];
    assert Print([(k, v)]) == tok + ";";
    RStripCharAppend(tok, ';');
    assert RStripChar(tok, ';') == tok;
  }

  lemma HeadRejected(k: string, a: string)
    requires ValidKey(k)
    requires |a| == 0 || (a[|a| - 1] != '"' && a[|a| - 1] != '\n')
    ensures MatchAttribute(k + " \"" + a) == None
  {
    var head := k + " \"" + a;
    if |a| == 0 {
      WordPrefixOf(k, " \"");
      assert head == k + " \"";
    } else {
      assert head[|head| - 1] == a[|a| - 1];
    }
  }

  /** An empty column is rejected: splitting `""` gives one empty token. */
  lemma EmptyFieldRejected()
    ensures Parse("") == Err(ParsingError)
  {
    assert FieldTokens("") == [""];
  }
}

=== FILE: cleanup.dfy ===
/** Cleaning an NCBI-style GTF stream for CellRanger (gtfez/cleanup_ncbi.py).

    Records from the `Gnomon` source keep only the allowed attributes and get
    a `gene_name` mirroring `gene`; `RefSeq` records are mitochondrial: each
    `gene` record becomes a gene, a transcript and an exon record, and every
    other `RefSeq` record is dropped. Comment lines pass through, and records
    of any other source are dropped.
 */
module CleanupNcbi {
  import opened Results
  import opened Records
  import opened Attributes

  /** The default `allowed_attributes` of `fix_record`. */
  const DefaultAllowed: set<string> :=
    {"gene_id", "transcript_id", "transcript_biotype", "gene", "gene_name", "exon_number"}

  /** The entries of `d` whose key is in `allowed`, in their order. */
  function Restrict(d: AttrList, allowed: set<string>): (r: AttrList)
    ensures |r| <= |d|
  {
    if |d| == 0 then []
    else (if d[0].0 in allowed then [d[0]] else []) + Restrict(d[1..], allowed)
  }

  /** The entries kept are exactly those with an allowed key. */
  lemma {:induction false} RestrictMembers(d: AttrList, allowed: set<string>)
    ensures forall p :: p in Restrict(d, allowed) <==> p in d && p.0 in allowed
  {
    if |d| > 0 {
      RestrictMembers(d[1..], allowed);
      assert d == [d[0]] + d[1..];
    }
  }

  lemma {:induction false} RestrictConcat(a: AttrList, b: AttrList, allowed: set<string>)
    ensures Restrict(a + b, allowed) == Restrict(a, allowed) + Restrict(b, allowed)
  {
    if |a| > 0 {
      assert (a + b)[1..] == a[1..] + b;
      RestrictConcat(a[1..], b, allowed);
    } else {
      assert a + b == b;
    }
  }

  /** Keys are kept exactly when allowed, and the first entry of a kept key
      is the same as before. */
  lemma {:induction false} RestrictGet(d: AttrList, allowed: set<string>, k: string)
    ensures Get(Restrict(d, allowed), k) == if k in allowed then Get(d, k) else Err(KeyError)
  {
    var r := Restrict(d, allowed);
    if |d| > 0 {
      var rest := Restrict(d[1..], allowed);
      RestrictGet(d[1..], allowed, k);
      GetCons(d, k);
      if d[0].0 in allowed {
        assert r == [d[0]] + rest;
        GetCons(r, k);
        assert r[1..] == rest;
      } else {
        assert r == rest;
      }
    }
  }

  lemma {:induction false} RestrictUnique(d: AttrList, allowed: set<string>)
    ensures UniqueKeys(d) ==> UniqueKeys(Restrict(d, allowed))
  {
    if |d| > 0 && UniqueKeys(d) {
      var rest := Restrict(d[1..], allowed);
      RestrictUnique(d[1..], allowed);
      RestrictMembers(d[1..], allowed);
      if d[0].0 in allowed {
        forall j | 0 <= j < |rest|
          ensures rest[j].0 != d[0].0
        {
          assert rest[j] in d[1..];
          var m :| 0 <= m < |d[1..]| && d[1..][m] == rest[j];
          assert d[m + 1] == rest[j];
        }
        var r := [d[0]] + rest;
        assert r == Restrict(d, allowed);
        forall a, b | 0 <= a < b < |r|
          ensures r[a].0 != r[b].0
        {
          if a > 0 {
            assert r[a] == rest[a - 1] && r[b] == rest[b - 1];
          } else {
            assert r[b] == rest[b - 1];
          }
        }
      } else {
        assert Restrict(d, allowed) == rest;
      }
    }
  }

  /** Every key of the list is in `allowed`: nothing is removed. */
  lemma {:induction false} RestrictAll(d: AttrList, allowed: set<string>)
    requires forall i :: 0 <= i < |d| ==> d[i].0 in allowed
    ensures Restrict(d, allowed) == d
  {
    if |d| > 0 {
      RestrictAll(d[1..], allowed);
      assert d == [d[0]] + d[1..];
    }
  }

  /** `del d[k]` for each key of `keys`, in that order; the first missing
      key raises `KeyError`. */
  function DeleteAll(d: AttrList, keys: seq<string>): (r: Result<AttrList>)
    ensures r.Err? ==> r.error == KeyError
    ensures r.Ok? ==> |r.value| == |d| - |keys|
    ensures r.Ok? ==> forall p :: p in r.value ==> p in d
    decreases |keys|
  {
    if |keys| == 0 then Ok(d)
    else
      var d' :- Delete(d, keys[0]);
      DeleteFewer(d, keys[0]);
      DeleteAll(d', keys[1..])
  }

  /** Deletion only removes pairs. */
  lemma DeleteFewer(d: AttrList, k: string)
    requires Delete(d, k).Ok?
    ensures forall p :: p in Delete(d, k).value ==> p in d
  {
    var r := Delete(d, k).value;
    var i :| 0 <= i < |d| && d[i].0 == k && r == d[..i] + d[i + 1..];
    RemovedMembers(d, i, r);
  }

  lemma RemovedMembers(d: AttrList, i: int, r: AttrList)
    requires 0 <= i < |d| && r == d[..i] + d[i + 1..]
    ensures forall p :: p in r ==> p in d
  {
    forall p | p in r
      ensures p in d
    {
      var j :| 0 <= j < |r| && r[j] == p;
      RemovedAt(d, i, r, j);
    }
  }

  /** The loop of `fix_record` (lines 54-56) deletes each key of a set in
      whatever order the set yields them. Whatever that order, it never
      fails and leaves exactly the allowed entries, in their order. */
  lemma {:induction false} DeleteAllRestrict(d: AttrList, keys: seq<string>, allowed: set<string>)
    requires UniqueKeys(d)
    requires forall i :: 0 <= i < |keys| ==> keys[i] in Keys(d) && keys[i] !in allowed
    requires forall i, j :: 0 <= i < j < |keys| ==> keys[i] != keys[j]
    requires forall i :: 0 <= i < |d| && d[i].0 !in allowed ==> d[i].0 in keys
    ensures DeleteAll(d, keys) == Ok(Restrict(d, allowed))
  {
    if |keys| == 0 {
      RestrictAll(d, allowed);
    } else {
      var k := keys[0];
      var d' := Delete(d, k).value;
      var i :| 0 <= i < |d| && d[i].0 == k && d' == d[..i] + d[i + 1..];
      RestrictDropped(d, allowed, i);
      forall j | 0 <= j < |keys[1..]|
        ensures keys[1..][j] in Keys(d') && keys[1..][j] !in allowed
      {
        assert keys[1..][j] == keys[j + 1] != k;
        assert Get(d', keys[j + 1]) == Get(d, keys[j + 1]);
      }
      forall m | 0 <= m < |d'| && d'[m].0 !in allowed
        ensures d'[m].0 in keys[1..]
      {
        RemovedAt(d, i, d', m);
        KeysMember(d', k);
        var n :| 0 <= n < |keys| && keys[n] == d'[m].0;
        assert n != 0;
        assert keys[1..][n - 1] == d'[m].0;
      }
      DeleteAllRestrict(d', keys[1..], allowed);
    }
  }

  lemma RestrictDropped(d: AttrList, allowed: set<string>, i: int)
    requires 0 <= i < |d| && d[i].0 !in allowed
    ensures Restrict(d[..i] + d[i + 1..], allowed) == Restrict(d, allowed)
  {
    assert d == d[..i] + ([d[i]] + d[i + 1..]);
    RestrictConcat(d[..i], [d[i]] + d[i + 1..], allowed);
    RestrictConcat([d[i]], d[i + 1..], allowed);
    RestrictConcat(d[..i], d[i + 1..], allowed);
    assert Restrict([d[i]], allowed) == [];
  }

  /** `fix_record` (lines 28-60): keep the allowed attributes, then mirror
      `gene` into `gene_name` when `gene` survived. */
  function FixRecord(r: Record, allowed: set<string>): (out: Record)
    ensures out == r.(attributes := out.attributes)
    ensures UniqueKeys(r.attributes) ==> UniqueKeys(out.attributes)
  {
    var kept := Restrict(r.attributes, allowed);
    RestrictUnique(r.attributes, allowed);
    var attributes :=
      match Get(kept, "gene")
      case Ok(gene) => Set(kept, "gene_name", gene)
      case Err(_) => kept;
    r.(attributes := attributes)
  }

  /** Each attribute after `fix_record`: `gene_name` holds the gene symbol
      when `gene` is allowed and present; every other key keeps its value
      if allowed and is gone otherwise. */
  lemma FixRecordGet(r: Record, allowed: set<string>, k: string)
    ensures k != "gene_name" ==>
      Get(FixRecord(r, allowed).attributes, k) == if k in allowed then Get(r.attributes, k) else Err(KeyError)
    ensures k == "gene_name" ==>
      Get(FixRecord(r, allowed).attributes, k) ==
        if "gene" in allowed && Get(r.attributes, "gene").Ok? then Get(r.attributes, "gene")
        else if k in allowed then Get(r.attributes, k)
        else Err(KeyError)
  {
    RestrictGet(r.attributes, allowed, k);
    RestrictGet(r.attributes, allowed, "gene");
  }

  /** Nothing outside `allowed` survives, except the `gene_name` mirrored
      from an allowed `gene`. */
  lemma FixRecordKeys(r: Record, allowed: set<string>)
    ensures forall p :: p in FixRecord(r, allowed).attributes ==>
      p.0 in allowed || (p.0 == "gene_name" && "gene" in allowed)
  {
    var kept := Restrict(r.attributes, allowed);
    var out := FixRecord(r, allowed).attributes;
    RestrictMembers(r.attributes, allowed);
    RestrictGet(r.attributes, allowed, "gene");
    match Get(kept, "gene")
    case Ok(gene) =>
      assert out == Set(kept, "gene_name", gene);
      assert forall p :: p in out ==> p in kept || p == ("gene_name", gene);
    case Err(_) =>
      assert out == kept;
  }

  /** Cleaning a cleaned record changes nothing, whatever the allowed
      list. */
  lemma FixRecordIdempotent(r: Record, allowed: set<string>)
    ensures FixRecord(FixRecord(r, allowed), allowed) == FixRecord(r, allowed)
  {
    if "gene_name" in allowed {
      FixAgainKeeps(r, allowed);
    } else {
      FixAgainDrops(r, allowed);
    }
  }

  /** With `gene_name` allowed, the cleaned attributes are all allowed and
      already mirror `gene`. */
  lemma FixAgainKeeps(r: Record, allowed: set<string>)
    requires "gene_name" in allowed
    ensures FixRecord(FixRecord(r, allowed), allowed) == FixRecord(r, allowed)
  {
    var once := FixRecord(r, allowed);
    var kept := Restrict(r.attributes, allowed);
    FixRecordKeys(r, allowed);
    forall i | 0 <= i < |once.attributes|
      ensures once.attributes[i].0 in allowed
    {
      assert once.attributes[i] in once.attributes;
    }
    RestrictAll(once.attributes, allowed);
    match Get(kept, "gene")
    case Ok(g) =>
      assert Get(once.attributes, "gene") == Ok(g);
      SetSame(once.attributes, "gene_name", g);
    case Err(_) =>
      assert once.attributes == kept;
  }

  /** With `gene_name` not allowed, the mirrored `gene_name` is appended,
      filtered out again and appended again at the same place. */
  lemma FixAgainDrops(r: Record, allowed: set<string>)
    requires "gene_name" !in allowed
    ensures FixRecord(FixRecord(r, allowed), allowed) == FixRecord(r, allowed)
  {
    var once := FixRecord(r, allowed);
    var kept := Restrict(r.attributes, allowed);
    RestrictMembers(r.attributes, allowed);
    forall i | 0 <= i < |kept|
      ensures kept[i].0 in allowed
    {
      assert kept[i] in kept;
    }
    RestrictAll(kept, allowed);
    match Get(kept, "gene")
    case Ok(g) =>
      KeysMember(kept, "gene_name");
      assert once.attributes == kept + [("gene_name", g)];
      RestrictConcat(kept, [("gene_name", g)], allowed);
      assert Restrict([("gene_name", g)], allowed) == [];
      assert Restrict(once.attributes, allowed) == kept;
    case Err(_) =>
      assert once.attributes == kept;
  }

  /** `deal_with_mito_record` (lines 63-99). A `gene` record yields the gene,
      transcript and exon records in the order they are printed; any other
      record yields nothing. A missing `gene`, `gene_biotype` or
      `transcript_id` raises `KeyError` before anything is printed. */
  function DealWithMito(r: Record): (out: Result<seq<Record>>)
    ensures r.feature != "gene" ==> out == Ok([])
    ensures out.Err? ==> out.error == KeyError
    ensures out.Ok? && r.feature == "gene" ==> |out.value| == 3
  {
    if r.feature != "gene" then Ok([])
    else
      var gene :- Get(r.attributes, "gene");
      var geneAttrs := Set(r.attributes, "gene_name", "MT-" + gene);
      var name := "MT-" + gene;
      var t1 := Set(geneAttrs, "transcript_id", name);
      var biotype :- Get(t1, "gene_biotype");
      var t2 := Set(t1, "transcript_biotype", biotype);
      var transcriptAttrs :- Delete(t2, "gene_biotype");
      var geneAttrs' :- Delete(geneAttrs, "transcript_id");
      var transcript := r.(feature := "transcript", attributes := transcriptAttrs);
      Ok([r.(attributes := geneAttrs'), transcript, transcript.(feature := "exon")])
  }

  /** The record is turned into three exactly when it has all three keys
      the code reads or deletes. */
  lemma DealWithMitoSucceeds(r: Record)
    requires r.feature == "gene"
    ensures DealWithMito(r).Ok? <==>
      "gene" in Keys(r.attributes) && "gene_biotype" in Keys(r.attributes) && "transcript_id" in Keys(r.attributes)
  {
    var d := r.attributes;
    if "gene" in Keys(d) {
      var g := Set(d, "gene_name", "MT-" + Get(d, "gene").value);
      var t1 := Set(g, "transcript_id", "MT-" + Get(d, "gene").value);
      assert Get(g, "gene_biotype") == Get(d, "gene_biotype");
      assert Get(t1, "gene_biotype") == Get(d, "gene_biotype");
      assert Get(g, "transcript_id") == Get(d, "transcript_id");
      if "gene_biotype" in Keys(d) {
        var t2 := Set(t1, "transcript_biotype", Get(d, "gene_biotype").value);
        assert Get(t2, "gene_biotype") == Get(d, "gene_biotype");
      }
    }
  }

  /** The three mitochondrial records: all columns but the feature and the
      attributes are the gene record's; the gene keeps its attributes with
      `gene_name` set to `MT-<gene>` and `transcript_id` removed; the
      transcript has `transcript_id` and `gene_name` both `MT-<gene>`, and
      `gene_biotype` renamed to `transcript_biotype`; the exon is the
      transcript relabelled. */
  lemma MitoRecords(r: Record)
    requires r.feature == "gene" && UniqueKeys(r.attributes)
    requires "gene" in Keys(r.attributes) && "gene_biotype" in Keys(r.attributes) && "transcript_id" in Keys(r.attributes)
    ensures DealWithMito(r).Ok?
    ensures
      var recs := DealWithMito(r).value;
      var m := ToMap(r.attributes);
      var name := "MT-" + Get(r.attributes, "gene").value;
      var biotype := Get(r.attributes, "gene_biotype").value;
      && recs[0] == r.(attributes := recs[0].attributes)
      && recs[1] == r.(feature := "transcript", attributes := recs[1].attributes)
      && recs[2] == recs[1].(feature := "exon")
      && ToMap(recs[0].attributes) == m["gene_name" := name] - {"transcript_id"}
      && ToMap(recs[1].attributes) ==
           m["gene_name" := name]["transcript_id" := name]["transcript_biotype" := biotype] - {"gene_biotype"}
      && UniqueKeys(recs[0].attributes) && UniqueKeys(recs[1].attributes)
  {
    var d := r.attributes;
    var name := "MT-" + Get(d, "gene").value;
    var biotype := Get(d, "gene_biotype").value;
    MitoSteps(d, name, biotype);
    MitoValue(r);
  }

  lemma MitoValue(r: Record)
    requires r.feature == "gene"
    requires "gene" in Keys(r.attributes) && "gene_biotype" in Keys(r.attributes) && "transcript_id" in Keys(r.attributes)
    ensures
      var d := r.attributes;
      var name := "MT-" + Get(d, "gene").value;
      var g := Set(d, "gene_name", name);
      var t2 := Set(Set(g, "transcript_id", name), "transcript_biotype", Get(d, "gene_biotype").value);
      && Delete(g, "transcript_id").Ok? && Delete(t2, "gene_biotype").Ok?
      && DealWithMito(r) == Ok([r.(attributes := Delete(g, "transcript_id").value),
           r.(feature := "transcript", attributes := Delete(t2, "gene_biotype").value),
           r.(feature := "exon", attributes := Delete(t2, "gene_biotype").value)])
  {
    var d := r.attributes;
    var name := "MT-" + Get(d, "gene").value;
    var g := Set(d, "gene_name", name);
    var t1 := Set(g, "transcript_id", name);
    assert Get(t1, "gene_biotype") == Get(d, "gene_biotype");
    var t2 := Set(t1, "transcript_biotype", Get(d, "gene_biotype").value);
    assert Get(t2, "gene_biotype") == Get(d, "gene_biotype");
    assert Get(g, "transcript_id") == Get(d, "transcript_id");
  }

  /** The map view of each step of `deal_with_mito_record`. */
  lemma MitoSteps(d: AttrList, name: string, biotype: string)
    requires UniqueKeys(d) && Get(d, "gene_biotype") == Ok(biotype) && "transcript_id" in Keys(d)
    ensures
      var g := Set(d, "gene_name", name);
      var t2 := Set(Set(g, "transcript_id", name), "transcript_biotype", biotype);
      && Delete(g, "transcript_id").Ok? && Delete(t2, "gene_biotype").Ok?
      && ToMap(Delete(g, "transcript_id").value) == ToMap(d)["gene_name" := name] - {"transcript_id"}
      && ToMap(Delete(t2, "gene_biotype").value) ==
           ToMap(d)["gene_name" := name]["transcript_id" := name]["transcript_biotype" := biotype] - {"gene_biotype"}
      && UniqueKeys(Delete(g, "transcript_id").value) && UniqueKeys(Delete(t2, "gene_biotype").value)
  {
    var g := Set(d, "gene_name", name);
    var t1 := Set(g, "transcript_id", name);
    var t2 := Set(t1, "transcript_biotype", biotype);
    ToMapSet(d, "gene_name", name);
    ToMapSet(g, "transcript_id", name);
    ToMapSet(t1, "transcript_biotype", biotype);
    assert Get(t2, "gene_biotype") == Ok(biotype);
    ToMapDelete(t2, "gene_biotype");
    assert Get(g, "transcript_id") == Get(d, "transcript_id");
    ToMapDelete(g, "transcript_id");
  }

  /** What the run has printed, and the exception that ended it, if any. */
  datatype Run = Run(out: seq<Item>, failure: Option<Error>)

  /** The loop body of `cleanup_ncbi_gtf` (lines 103-111) for one item. */
  function Route(it: Item): (out: Result<seq<Item>>)
    ensures out.Err? ==> out.error == KeyError
  {
    match it
    case Comment(_) => Ok([it])
    case Feature(r) =>
      if r.source == "Gnomon" then Ok([Feature(FixRecord(r, DefaultAllowed))])
      else if r.source == "RefSeq" then
        var recs :- DealWithMito(r);
        Ok(seq(|recs|, i requires 0 <= i < |recs| => Feature(recs[i])))
      else Ok([])
  }

  /** What one item becomes: comments pass through, a `Gnomon` record is
      cleaned, a `RefSeq` record is expanded or dropped, any other source is
      dropped, and only a `RefSeq` gene can raise. */
  lemma RouteCases(it: Item)
    ensures it.Comment? ==> Route(it) == Ok([it])
    ensures it.Feature? && it.record.source == "Gnomon" ==> Route(it) == Ok([Feature(FixRecord(it.record, DefaultAllowed))])
    ensures it.Feature? && it.record.source != "Gnomon" && it.record.source != "RefSeq" ==> Route(it) == Ok([])
    ensures Route(it).Err? ==> it.Feature? && it.record.source == "RefSeq" && it.record.feature == "gene"
    ensures Route(it).Ok? && it.Feature? && it.record.source == "RefSeq" ==>
      |Route(it).value| == (if it.record.feature == "gene" then 3 else 0)
  {
  }

  /** The loop of `cleanup_ncbi_gtf` (lines 102-111), for any per-item step:
      each item's output in order, stopping at the first exception. */
  function RunSteps(step: Item -> Result<seq<Item>>, items: seq<Item>): (run: Run)
    ensures run.failure.Some? ==>
      exists i :: 0 <= i < |items| && step(items[i]) == Err(run.failure.value)
  {
    if |items| == 0 then Run([], None)
    else
      var h := step(items[0]);
      if h.Err? then Run([], Some(h.error))
      else
        var rest := RunSteps(step, items[1..]);
        Run(h.value + rest.out, rest.failure)
  }

  /** A run can only end with an exception some step raises. */
  lemma {:induction false} StepsFailure(step: Item -> Result<seq<Item>>, items: seq<Item>, e: Error)
    requires forall it :: step(it).Err? ==> step(it).error == e
    ensures RunSteps(step, items).failure.Some? ==> RunSteps(step, items).failure.value == e
  {
    if |items| > 0 && step(items[0]).Ok? {
      StepsFailure(step, items[1..], e);
    }
  }

  /** A run completes exactly when no step raises. */
  lemma {:induction false} StepsComplete(step: Item -> Result<seq<Item>>, items: seq<Item>)
    ensures RunSteps(step, items).failure.None? <==> forall i :: 0 <= i < |items| ==> step(items[i]).Ok?
  {
    if |items| > 0 {
      StepsComplete(step, items[1..]);
      assert forall i :: 0 <= i < |items[1..]| ==> items[1..][i] == items[i + 1];
      if step(items[0]).Ok? {
        assert forall i :: 1 <= i < |items| ==> items[i] == items[1..][i - 1];
      }
    }
  }

  /** Running over a concatenation runs the first part, then, if it did not
      fail, the second. */
  lemma {:induction false} StepsConcat(step: Item -> Result<seq<Item>>, a: seq<Item>, b: seq<Item>)
    ensures RunSteps(step, a + b) ==
      if RunSteps(step, a).failure.None?
      then Run(RunSteps(step, a).out + RunSteps(step, b).out, RunSteps(step, b).failure)
      else RunSteps(step, a)
  {
    if |a| == 0 {
      assert a + b == b;
    } else {
      assert (a + b)[0] == a[0];
      assert (a + b)[1..] == a[1..] + b;
      var h := step(a[0]);
      if h.Ok? {
        var rest, restB, tail := RunSteps(step, a[1..]), RunSteps(step, a[1..] + b), RunSteps(step, b);
        assert RunSteps(step, a + b) == Run(h.value + restB.out, restB.failure);
        assert RunSteps(step, a) == Run(h.value + rest.out, rest.failure);
        StepsConcat(step, a[1..], b);
        if rest.failure.None? {
          assert h.value + (rest.out + tail.out) == (h.value + rest.out) + tail.out;
        }
      }
    }
  }

  /** `cleanup_ncbi_gtf` (lines 102-111): the only exception that can end
      the run is `KeyError`. */
  function Cleanup(items: seq<Item>): (run: Run)
    ensures run.failure.Some? ==> run.failure.value == KeyError
  {
    StepsFailure(Route, items, KeyError);
    RunSteps(Route, items)
  }

  /** The run completes exactly when no item raises. */
  lemma CleanupCompletes(items: seq<Item>)
    ensures Cleanup(items).failure.None? <==> forall i :: 0 <= i < |items| ==> Route(items[i]).Ok?
  {
    StepsComplete(Route, items);
  }

  /** A single item is cleaned by its own step. */
  lemma CleanupOne(it: Item)
    ensures Cleanup([it]) ==
      if Route(it).Ok? then Run(Route(it).value, None) else Run([], Some(Route(it).error))
  {
    var items := [it];
    assert items[0] == it && items[1..] == [];
    assert RunSteps(Route, items[1..]) == Run([], None);
    assert Cleanup(items) == RunSteps(Route, items);
    if Route(it).Ok? {
      assert Route(it).value + [] == Route(it).value;
    }
  }

  /** The output is produced item by item: cleaning a concatenation cleans
      the first part, then, if it did not fail, the second. */
  lemma CleanupConcat(a: seq<Item>, b: seq<Item>)
    ensures Cleanup(a + b) ==
      if Cleanup(a).failure.None? then Run(Cleanup(a).out + Cleanup(b).out, Cleanup(b).failure)
      else Cleanup(a)
  {
    StepsConcat(Route, a, b);
  }
}

=== FILE: decimal.dfy ===
/** Python's `int(text)` (base 10) and `str(n)` for integers, as used for the
    `start` and `end` columns of a GTF record.
 */
module Decimal {
  import opened Results
  import opened Text

  predicate IsDigit(c: char) {
    '0' <= c <= '9'
  }

  function DigitValue(c: char): (d: nat)
    requires IsDigit(c)
    ensures d < 10
  {
    (c as int) - ('0' as int)
  }

  function DigitChar(d: nat): (c: char)
    requires d < 10
    ensures IsDigit(c) && DigitValue(c) == d
  {
    (('0' as int) + d) as char
  }

  /** Digits with single underscores between them, the body `int()` accepts
      after the whitespace and an optional sign are removed. */
  predicate ValidBody(b: string) {
    && |b| > 0
    && IsDigit(b[0])
    && forall i {:trigger b[i]} :: 0 <= i < |b| ==> IsDigit(b[i]) || (b[i] == '_' && i + 1 < |b| && IsDigit(b[i + 1]))
  }

  lemma BodyChars(b: string)
    requires ValidBody(b)
    ensures forall i :: 0 <= i < |b| ==> IsDigit(b[i]) || b[i] == '_'
  {
  }

  /** The value of a digit string, skipping the underscores. */
  function BodyValue(b: string): nat
    requires forall i :: 0 <= i < |b| ==> IsDigit(b[i]) || b[i] == '_'
  {
    if |b| == 0 then 0
    else if b[|b| - 1] == '_' then BodyValue(b[..|b| - 1])
    else BodyValue(b[..|b| - 1]) * 10 + DigitValue(b[|b| - 1])
  }

  /** The whitespace `int()` skips around a number: the `str.isspace()` set
      except the ASCII separators U+001C to U+001F, which `int()` rejects. */
  predicate IsIntSpace(c: char) {
    IsSpace(c) && !('\U{1c}' <= c <= '\U{1f}')
  }

  function TrimLeft(s: string): (r: string)
    ensures |r| <= |s| && r == s[|s| - |r|..]
    ensures forall i :: 0 <= i < |s| - |r| ==> IsIntSpace(s[i])
    ensures |r| == 0 || !IsIntSpace(r[0])
  {
    if |s| > 0 && IsIntSpace(s[0]) then TrimLeft(s[1..]) else s
  }

  function TrimRight(s: string): (r: string)
    ensures |r| <= |s| && r == s[..|r|]
    ensures forall i :: |r| <= i < |s| ==> IsIntSpace(s[i])
    ensures |r| == 0 || !IsIntSpace(r[|r| - 1])
  {
    if |s| > 0 && IsIntSpace(s[|s| - 1]) then TrimRight(s[..|s| - 1]) else s
  }

  /** The text `int()` reads: `s` without the whitespace around it. */
  function IntTrim(s: string): (r: string)
    ensures |r| == 0 || (!IsIntSpace(r[0]) && !IsIntSpace(r[|r| - 1]))
  {
    TrimRight(TrimLeft(s))
  }

  /** `IntTrim` cuts `int()` whitespace from the ends of `s`, and nothing
      else. */
  lemma {:induction false} TrimShape(s: string)
    ensures TrimmedAt(s, |s| - |TrimLeft(s)|, IntTrim(s), IsIntSpace)
  {
    var l := TrimLeft(s);
    var r := TrimRight(l);
    var a := |s| - |l|;
    assert r == s[a..a + |r|];
    TrailingShift(l, s, a, |r|, IsIntSpace);
    assert TrimmedAt(s, a, r, IsIntSpace);
  }

  lemma IntTrimUnchanged(s: string)
    requires |s| == 0 || (!IsIntSpace(s[0]) && !IsIntSpace(s[|s| - 1]))
    ensures IntTrim(s) == s
  {
  }

  /** The text after one optional leading sign. */
  function Unsigned(t: string): string {
    if |t| > 0 && (t[0] == '-' || t[0] == '+') then t[1..] else t
  }

  lemma UnsignedLast(t: string)
    requires |Unsigned(t)| > 0
    ensures |t| > 0 && Unsigned(t)[|Unsigned(t)| - 1] == t[|t| - 1]
  {
  }

  /** Python's default bound on the number of digits `int()` reads and
      `str()` writes (`sys.int_info.default_max_str_digits`). */
  const MaxStrDigits: nat := 4300

  /** The number of digits in `b`; underscores do not count. */
  function DigitCount(b: string): nat {
    if |b| == 0 then 0
    else DigitCount(b[..|b| - 1]) + (if IsDigit(b[|b| - 1]) then 1 else 0)
  }

  /** The value of a signed digit string: the body's value, negated after
      a leading `-`. */
  function SignedValue(t: string): int
    requires ValidBody(Unsigned(t))
  {
    BodyChars(Unsigned(t));
    var v: int := BodyValue(Unsigned(t));
    if |t| > 0 && t[0] == '-' then -v else v
  }

  /** `int(s)`: `None` where Python raises `ValueError`. A number is accepted
      when, around its whitespace, it is an optional sign and then digits
      with single underscores between them, at most `MaxStrDigits` of
      them. */
  function ParseInt(s: string): (r: Option<int>)
    ensures r.Some? <==>
      ValidBody(Unsigned(IntTrim(s))) && DigitCount(Unsigned(IntTrim(s))) <= MaxStrDigits
    ensures r.Some? ==> r.value == SignedValue(IntTrim(s))
  {
    var t := IntTrim(s);
    var body := Unsigned(t);
    if !ValidBody(body) || DigitCount(body) > MaxStrDigits then None
    else
      UnsignedLast(t);
      BodyChars(body);
      var v: int := BodyValue(body);
      if |t| > 0 && t[0] == '-' then Some(-v) else Some(v)
  }

  /** `str(n)` for a non-negative `n`: decimal digits without leading zeros. */
  function NatToString(n: nat): (s: string)
    ensures |s| > 0
    ensures forall i :: 0 <= i < |s| ==> IsDigit(s[i])
    ensures s[0] == '0' ==> n == 0 && |s| == 1
  {
    if n < 10 then [DigitChar(n)] else NatToString(n / 10) + [DigitChar(n % 10)]
  }

  /** `str(n)`: a minus sign for a negative `n`, then the decimal digits
      of its magnitude without leading zeros. */
  function IntToString(n: int): (s: string)
    ensures |s| > 0 && !IsSpace(s[0]) && IsDigit(s[|s| - 1])
    ensures forall i :: 0 <= i < |s| ==> IsDigit(s[i]) || s[i] == '-'
    ensures forall i :: 0 < i < |s| ==> IsDigit(s[i])
    ensures s[0] == '-' <==> n < 0
    ensures |s| > 1 && s[0] != '-' ==> s[0] != '0'
    ensures s[0] == '-' ==> s[1] != '0'
    ensures ValidBody(Unsigned(s)) && SignedValue(s) == n
  {
    var m: nat := if n < 0 then -n else n;
    var digits := NatToString(m);
    NatToStringValue(m);
    SignedDigits(digits, n < 0);
    if n < 0 then "-" + digits else digits
  }

  /** Digits without leading zeros, with or without a minus sign in front:
      the shape `str()` prints, a valid number worth the digits' value,
      negated after the sign. */
  lemma SignedDigits(digits: string, negative: bool)
    requires |digits| > 0 && forall i :: 0 <= i < |digits| ==> IsDigit(digits[i])
    requires digits[0] == '0' ==> |digits| == 1 && !negative
    ensures var s := if negative then "-" + digits else digits;
      && |s| > 0 && !IsSpace(s[0]) && IsDigit(s[|s| - 1])
      && (forall i :: 0 < i < |s| ==> IsDigit(s[i]))
      && (forall i :: 0 <= i < |s| ==> IsDigit(s[i]) || s[i] == '-')
      && (s[0] == '-' <==> negative)
      && (|s| > 1 && s[0] != '-' ==> s[0] != '0')
      && (s[0] == '-' ==> s[1] != '0')
      && ValidBody(Unsigned(s))
      && SignedValue(s) == if negative then -(BodyValue(digits) as int) else BodyValue(digits)
  {
    var s := if negative then "-" + digits else digits;
    assert Unsigned(s) == digits;
    assert forall i :: 0 < i < |s| ==> IsDigit(s[i]) by {
      if negative {
        assert forall i :: 0 < i < |s| ==> s[i] == digits[i - 1];
      }
    }
    PlainDigits(digits);
  }

  /** `str(n)` succeeds: at most `MaxStrDigits` digits, not counting the
      sign. */
  predicate WithinDigitLimit(n: int) {
    |NatToString(if n < 0 then -n else n)| <= MaxStrDigits
  }

  lemma {:induction false} DigitCountDigits(s: string)
    requires forall i :: 0 <= i < |s| ==> IsDigit(s[i])
    ensures DigitCount(s) == |s|
  {
    if |s| > 0 {
      DigitCountDigits(s[..|s| - 1]);
    }
  }

  lemma {:induction false} NatToStringValue(n: nat)
    ensures BodyValue(NatToString(n)) == n
  {
    var s := NatToString(n);
    if n >= 10 {
      NatToStringValue(n / 10);
      assert s[..|s| - 1] == NatToString(n / 10);
    }
  }

  /** Printing an integer and reading it back gives the same integer, for
      every integer `str()` can print. */
  lemma ParseIntToString(n: int)
    requires WithinDigitLimit(n)
    ensures ParseInt(IntToString(n)) == Some(n)
  {
    var s := IntToString(n);
    var digits := NatToString(if n < 0 then -n else n);
    IntTrimUnchanged(s);
    assert Unsigned(s) == digits;
    DigitCountDigits(digits);
  }

  lemma PlainDigits(digits: string)
    requires |digits| > 0 && forall i :: 0 <= i < |digits| ==> IsDigit(digits[i])
    ensures ValidBody(digits) && DigitCount(digits) == |digits|
  {
    DigitCountDigits(digits);
  }

  /** A column that is not a number, such as the `.` of an unknown frame, is
      rejected. */
  lemma DotIsNotANumber()
    ensures ParseInt(".") == None
  {
    SymbolIsNotANumber(".");
  }

  /** A single character that is neither whitespace, a sign nor a digit is
      not a number. */
  lemma SymbolIsNotANumber(s: string)
    requires |s| == 1 && !IsIntSpace(s[0]) && !IsDigit(s[0]) && s[0] != '-' && s[0] != '+'
    ensures ParseInt(s) == None
  {
    IntTrimUnchanged(s);
  }

  /** Unlike `str.strip()`, `int()` does not skip the separators U+001C to
      U+001F: a number led by one is rejected. */
  lemma SeparatorNotSkipped(c: char, digits: string)
    requires '\U{1c}' <= c <= '\U{1f}'
    ensures ParseInt([c] + digits) == None
  {
    var s := [c] + digits;
    var t := IntTrim(s);
    TrimShape(s);
    var a := |s| - |TrimLeft(s)|;
    assert !IsIntSpace(s[0]);
    assert a == 0 && |t| > 0 && t[0] == c;
  }
}

=== FILE: gene_tables.dfy ===
/** Adding gene names from a two-column lookup table (gtfez/add_gene_names.py).

    The table file is given as its lines; opening and reading it, and the
    command line, are not modelled. `table_to_dict` keeps the lines with
    exactly two tab-separated columns and skips the rest; a later line for
    the same gene ID replaces an earlier one.
 */
module GeneNames {
  import opened Results
  import opened Text
  import opened Records
  import opened Attributes

  type Entry = Option<(string, string)>

  /** `table` is what assigning the entries in order leaves in a dict:
      every key some entry carries is present, and holds the value of the
      last entry carrying that key. */
  predicate LastWins(table: map<string, string>, entries: seq<Entry>) {
    Covers(table, entries) && Latest(table, entries)
  }

  predicate Covers(table: map<string, string>, entries: seq<Entry>) {
    forall i :: 0 <= i < |entries| && entries[i].Some? ==> entries[i].value.0 in table
  }

  /** The entry at `i` carries `k` with value `v`, and no later entry carries `k`. */
  predicate LastEntryFor(entries: seq<Entry>, i: int, k: string, v: string) {
    && 0 <= i < |entries| && entries[i] == Some((k, v))
    && forall j :: i < j < |entries| ==> entries[j].None? || entries[j].value.0 != k
  }

  predicate Latest(table: map<string, string>, entries: seq<Entry>) {
    forall k :: k in table ==> exists i :: 0 <= i < |entries| && LastEntryFor(entries, i, k, table[k])
  }

  /** The dict built by assigning the entries in order, for proofs. */
  ghost function Collect(entries: seq<Entry>): map<string, string> {
    if |entries| == 0 then map[]
    else
      var m := Collect(entries[..|entries| - 1]);
      var last := entries[|entries| - 1];
      if last.Some? then m[last.value.0 := last.value.1] else m
  }

  lemma CollectLastWins(entries: seq<Entry>)
    ensures LastWins(Collect(entries), entries)
  {
    CollectCovers(entries);
    CollectLatest(entries);
  }

  lemma {:induction false} CollectCovers(entries: seq<Entry>)
    ensures Covers(Collect(entries), entries)
  {
    if |entries| > 0 {
      var n := |entries| - 1;
      var init := entries[..n];
      CollectCovers(init);
      assert forall i :: 0 <= i < n ==> init[i] == entries[i];
    }
  }

  lemma {:induction false} CollectLatest(entries: seq<Entry>)
    ensures Latest(Collect(entries), entries)
  {
    if |entries| > 0 {
      var n := |entries| - 1;
      var init := entries[..n];
      CollectLatest(init);
      var m := Collect(init);
      var table := Collect(entries);
      forall k | k in table
        ensures exists i :: 0 <= i < |entries| && LastEntryFor(entries, i, k, table[k])
      {
        if entries[n].Some? && entries[n].value.0 == k {
          assert LastEntryFor(entries, n, k, table[k]);
        } else {
          assert k in m && table[k] == m[k];
          var i :| LastEntryFor(init, i, k, m[k]);
          LastEntryExtends(entries, i, k, m[k]);
        }
      }
    }
  }

  /** An entry that is last for its key stays last when an entry for
      another key (or none) is appended. */
  lemma LastEntryExtends(entries: seq<Entry>, i: int, k: string, v: string)
    requires |entries| > 0
    requires LastEntryFor(entries[..|entries| - 1], i, k, v)
    requires entries[|entries| - 1].None? || entries[|entries| - 1].value.0 != k
    ensures LastEntryFor(entries, i, k, v)
  {
    var n := |entries| - 1;
    assert forall j :: 0 <= j < n ==> entries[..n][j] == entries[j];
  }

  lemma CollectStep(entries: seq<Entry>, i: int)
    requires 0 <= i < |entries|
    ensures Collect(entries[..i + 1]) ==
      if entries[i].Some? then Collect(entries[..i])[entries[i].value.0 := entries[i].value.1]
      else Collect(entries[..i])
  {
    assert entries[..i + 1][..i] == entries[..i];
  }

  /** What one table line contributes (lines 34-36): a pair for exactly two
      columns with a non-empty second one, nothing otherwise. */
  function LineEntry(line: string): (e: Entry)
    ensures e.Some? <==> |Fields(line)| == 2
    ensures e.Some? ==> e.value == (Fields(line)[0], Fields(line)[1])
  {
    var f := Fields(line);
    SecondColumnNeverEmpty(line);
    if |f| == 2 && f[1] != "" then Some((f[0], f[1])) else None
  }

  /** The `fields[1] != ""` test never rejects anything: a stripped line does
      not end with a tab, so its last column is not empty. */
  lemma SecondColumnNeverEmpty(line: string)
    ensures |Fields(line)| >= 2 ==> Fields(line)[|Fields(line)| - 1] != ""
  {
    var s := Strip(line);
    if |s| > 0 {
      assert !IsSpace(s[|s| - 1]);
      assert s[|s| - 1..] == [s[|s| - 1]];
    }
    SplitLastNonEmpty(s, Tab);
  }

  function LenientEntries(lines: seq<string>): (es: seq<Entry>)
    ensures |es| == |lines|
  {
    seq(|lines|, i requires 0 <= i < |lines| => LineEntry(lines[i]))
  }

  /** `table_to_dict` (lines 16-37). */
  method TableToDict(lines: seq<string>) returns (table: map<string, string>)
    ensures LastWins(table, LenientEntries(lines))
  {
    var entries := LenientEntries(lines);
    table := map[];
    var i := 0;
    while i < |lines|
      invariant 0 <= i <= |lines|
      invariant table == Collect(entries[..i])
    {
      var f := Fields(lines[i]);
      if |f| == 2 && f[1] != "" {
        table := table[f[0] := f[1]];
      }
      CollectStep(entries, i);
      i := i + 1;
    }
    assert entries[..i] == entries;
    CollectLastWins(entries);
  }

  /** The loop body of `add_gene_names` for one record (lines 87-92): when
      the record has the ID attribute and the table knows that ID, the name
      attribute is set to the table's name. */
  function AnnotateRecord(r: Record, table: map<string, string>, idKey: string, nameKey: string): (out: Record)
    ensures out == r.(attributes := out.attributes)
    ensures UniqueKeys(r.attributes) ==> UniqueKeys(out.attributes)
  {
    match Get(r.attributes, idKey)
    case Ok(id) => if id in table then r.(attributes := Set(r.attributes, nameKey, table[id])) else r
    case Err(_) => r
  }

  /** Only the name attribute can change, and it changes to the table's
      entry for the record's ID exactly when there is one. */
  lemma AnnotateGet(r: Record, table: map<string, string>, idKey: string, nameKey: string, k: string)
    ensures Get(AnnotateRecord(r, table, idKey, nameKey).attributes, k) ==
      if k == nameKey && Get(r.attributes, idKey).Ok? && Get(r.attributes, idKey).value in table
      then Ok(table[Get(r.attributes, idKey).value])
      else Get(r.attributes, k)
  {
  }

  /** In the map view, annotation is a single update or nothing. */
  lemma AnnotateToMap(r: Record, table: map<string, string>, idKey: string, nameKey: string)
    requires UniqueKeys(r.attributes)
    ensures ToMap(AnnotateRecord(r, table, idKey, nameKey).attributes) ==
      if idKey in ToMap(r.attributes) && ToMap(r.attributes)[idKey] in table
      then ToMap(r.attributes)[nameKey := table[ToMap(r.attributes)[idKey]]]
      else ToMap(r.attributes)
  {
    ToMapGet(r.attributes, idKey);
    match Get(r.attributes, idKey)
    case Ok(id) =>
      if id in table {
        ToMapSet(r.attributes, nameKey, table[id]);
      }
    case Err(_) =>
  }

  /** Running the script over its own output changes nothing more, provided
      the name key is not the ID key. */
  lemma AnnotateIdempotent(r: Record, table: map<string, string>, idKey: string, nameKey: string)
    requires idKey != nameKey
    ensures AnnotateRecord(AnnotateRecord(r, table, idKey, nameKey), table, idKey, nameKey)
         == AnnotateRecord(r, table, idKey, nameKey)
  {
    var once := AnnotateRecord(r, table, idKey, nameKey);
    match Get(r.attributes, idKey)
    case Ok(id) =>
      if id in table {
        assert Get(once.attributes, idKey) == Ok(id);
        SetSame(once.attributes, nameKey, table[id]);
      }
    case Err(_) =>
  }

  /** One item of `add_gene_names` (lines 86-94): comments pass through. */
  function Annotate(it: Item, table: map<string, string>, idKey: string, nameKey: string): Item {
    match it
    case Comment(_) => it
    case Feature(r) => Feature(AnnotateRecord(r, table, idKey, nameKey))
  }

  /** `add_gene_names` (lines 79-94): every item is written, one for one and
      in order; comments unchanged, each record replaced by its annotation,
      which changes at most its attributes. */
  function AddGeneNames(items: seq<Item>, table: map<string, string>, idKey: string, nameKey: string): (out: seq<Item>)
    ensures |out| == |items|
    ensures forall i :: 0 <= i < |items| && items[i].Comment? ==> out[i] == items[i]
    ensures forall i :: 0 <= i < |items| && items[i].Feature? ==>
      out[i].Feature? && out[i].record == items[i].record.(attributes := out[i].record.attributes)
    ensures forall i :: 0 <= i < |items| && items[i].Feature? ==>
      out[i] == Feature(AnnotateRecord(items[i].record, table, idKey, nameKey))
  {
    seq(|items|, i requires 0 <= i < |items| => Annotate(items[i], table, idKey, nameKey))
  }
}

/** Adding gene symbols with a strict lookup table
    (gtfez/add_gene_symbols.py). The annotation step is the same as in
    `GeneNames`; only the table reader differs.
 */
module GeneSymbols {
  import opened Results
  import opened Records
  import GeneNames

  /** What one line contributes (line 26-30): its first two columns, or
      `None` where `fields[1]` raises `IndexError`. Columns after the second
      are ignored. */
  function StrictEntry(line: string): (e: GeneNames.Entry)
    ensures e.Some? <==> |Fields(line)| >= 2
    ensures e.Some? ==> e.value == (Fields(line)[0], Fields(line)[1])
  {
    var f := Fields(line);
    if |f| >= 2 then Some((f[0], f[1])) else None
  }

  function StrictEntries(lines: seq<string>): (es: seq<GeneNames.Entry>)
    ensures |es| == |lines|
  {
    seq(|lines|, i requires 0 <= i < |lines| => StrictEntry(lines[i]))
  }

  /** `table_to_dict` (lines 8-31): a line with fewer than two columns
      (`StrictEntry` is `None` exactly then), including an empty line,
      raises `ParsingError` and no table is returned. */
  method TableToDict(lines: seq<string>) returns (r: Result<map<string, string>>)
    ensures r.Err? <==> exists i :: 0 <= i < |lines| && StrictEntries(lines)[i].None?
    ensures r.Err? ==> r.error == ParsingError
    ensures r.Ok? ==> GeneNames.LastWins(r.value, StrictEntries(lines))
  {
    r := AssignAll(StrictEntries(lines));
  }

  /** The loop of `table_to_dict` over the lines' entries: assign each in
      turn, stopping at the first line that has none. */
  method AssignAll(entries: seq<GeneNames.Entry>) returns (r: Result<map<string, string>>)
    ensures r.Err? <==> exists i :: 0 <= i < |entries| && entries[i].None?
    ensures r.Err? ==> r.error == ParsingError
    ensures r.Ok? ==> GeneNames.LastWins(r.value, entries)
  {
    var table: map<string, string> := map[];
    var i := 0;
    while i < |entries|
      invariant 0 <= i <= |entries|
      invariant table == GeneNames.Collect(entries[..i])
      invariant forall j :: 0 <= j < i ==> entries[j].Some?
    {
      var entry := entries[i];
      if entry.None? {
        return Err(ParsingError);
      }
      GeneNames.CollectStep(entries, i);
      table := table[entry.value.0 := entry.value.1];
      i := i + 1;
    }
    assert entries[..i] == entries;
    GeneNames.CollectLastWins(entries);
    r := Ok(table);
  }

  /** On a table where every line has exactly two columns the two readers
      see the same entries, so they build the same dict. */
  lemma TablesAgree(lines: seq<string>)
    requires forall i :: 0 <= i < |lines| ==> |Fields(lines[i])| == 2
    ensures StrictEntries(lines) == GeneNames.LenientEntries(lines)
  {
  }

  /** Where the readers differ: a line with three or more columns is
      skipped by the lenient reader and read by this one. */
  lemma ExtraColumns(line: string)
    requires |Fields(line)| > 2
    ensures GeneNames.LineEntry(line) == None
    ensures StrictEntry(line) == Some((Fields(line)[0], Fields(line)[1]))
  {
  }

  /** `add_gene_symbols` (lines 73-88): the same per-record step as
      `add_gene_names`. */
  function AddGeneSymbols(items: seq<Item>, table: map<string, string>, idKey: string, symbolKey: string): (out: seq<Item>)
    ensures |out| == |items|
    ensures forall i :: 0 <= i < |items| && items[i].Comment? ==> out[i] == items[i]
    ensures forall i :: 0 <= i < |items| && items[i].Feature? ==>
      out[i] == Feature(GeneNames.AnnotateRecord(items[i].record, table, idKey, symbolKey))
  {
    seq(|items|, i requires 0 <= i < |items| => GeneNames.Annotate(items[i], table, idKey, symbolKey))
  }
}

=== FILE: records.dfy ===
/** One GTF line (`Record`, gtfez/__init__.py:14-71) and the items of a parsed
    GTF stream.

    The nine columns are kept as in the line except `start` and `end`, which
    are integers. `frame` is kept as text: see `ParseRecordIntFrame` for the
    code as written, which converts it with `int()`.
 */
module Records {
  import opened Results
  import opened Text
  import opened Decimal
  import Attributes

  datatype Record = Record(
    seqname: string,
    source: string,
    feature: string,
    start: int,
    end: int,
    score: string,
    strand: string,
    frame: string,
    attributes: Attributes.AttrList)

  /** What the stream parser yields for one line: a comment line as its
      stripped text, or a parsed record. */
  datatype Item = Comment(text: string) | Feature(record: Record)

  const Tab: string := "\t"

  /** `line.strip().split("\t")` (line 40): at least one column, and the
      columns joined by tabs give back the stripped line. */
  function Fields(line: string): (f: seq<string>)
    ensures |f| >= 1
    ensures Join(f, Tab) == Strip(line)
  {
    JoinSplit(Strip(line), Tab);
    Split(Strip(line), Tab)
  }

  /** The nine columns `__str__` prints, in order. */
  function Columns(r: Record): (cols: seq<string>)
    ensures |cols| == 9
  {
    [r.seqname, r.source, r.feature, IntToString(r.start), IntToString(r.end),
     r.score, r.strand, r.frame, Attributes.Print(r.attributes)]
  }

  /** `str(record)` (line 54-71): the nine columns joined by tabs; for a
      printable record, reading the line's columns back gives exactly the
      nine columns. */
  function PrintRecord(r: Record): (line: string)
    ensures Printable(r) ==> Fields(line) == Columns(r)
  {
    if Printable(r) then
      PrintedColumns(r);
      Join(Columns(r), Tab)
    else Join(Columns(r), Tab)
  }

  /** `Record(line)` (line 38-52). A missing column (`IndexError`), a
      non-integer start or end (`ValueError`) and a malformed attributes
      column all surface as `ParsingError`; columns after the ninth are
      ignored. */
  function ParseRecord(line: string): (r: Result<Record>)
    ensures r.Ok? <==>
      && |Fields(line)| >= 9
      && ParseInt(Fields(line)[3]).Some?
      && ParseInt(Fields(line)[4]).Some?
      && Attributes.Parse(Fields(line)[8]).Ok?
    ensures r.Err? ==> r.error == ParsingError
    ensures r.Ok? ==> Attributes.UniqueKeys(r.value.attributes) && |r.value.attributes| > 0
  {
    var f := Fields(line);
    if |f| < 9 then Err(ParsingError)
    else
      var start :- OrParsingError(ParseInt(f[3]));
      var end :- OrParsingError(ParseInt(f[4]));
      var attributes :- Attributes.Parse(f[8]);
      Ok(Record(f[0], f[1], f[2], start, end, f[5], f[6], f[7], attributes))
  }

  /** `Record(line)` exactly as line 49 is written: `frame` also goes
      through `int()`, and prints back as that integer. It accepts exactly
      the lines the corrected parser accepts whose frame is an integer, and
      then differs from it only in the frame. */
  function ParseRecordIntFrame(line: string): (r: Result<Record>)
    ensures r.Ok? ==> |Fields(line)| >= 9 && ParseInt(Fields(line)[7]).Some?
    ensures r.Ok? <==> ParseRecord(line).Ok? && ParseInt(Fields(line)[7]).Some?
    ensures r.Err? ==> r.error == ParsingError
    ensures r.Ok? ==>
      r.value == ParseRecord(line).value.(frame := IntToString(ParseInt(Fields(line)[7]).value))
  {
    var f := Fields(line);
    if |f| < 9 then Err(ParsingError)
    else
      var start :- OrParsingError(ParseInt(f[3]));
      var end :- OrParsingError(ParseInt(f[4]));
      var frame :- OrParsingError(ParseInt(f[7]));
      var attributes :- Attributes.Parse(f[8]);
      Ok(Record(f[0], f[1], f[2], start, end, f[5], f[6], IntToString(frame), attributes))
  }

  /** What a successful parse holds, column by column. */
  lemma ParsedColumns(line: string, start: int, end: int, d: Attributes.AttrList)
    requires |Fields(line)| >= 9
    requires ParseInt(Fields(line)[3]) == Some(start)
    requires ParseInt(Fields(line)[4]) == Some(end)
    requires Attributes.Parse(Fields(line)[8]) == Ok(d)
    ensures ParseRecord(line) == Ok(Record(Fields(line)[0], Fields(line)[1], Fields(line)[2], start, end,
                                           Fields(line)[5], Fields(line)[6], Fields(line)[7], d))
  {
  }

  lemma ParsedValue(line: string)
    requires ParseRecord(line).Ok?
    ensures |Fields(line)| >= 9
    ensures ParseRecord(line).value == Record(Fields(line)[0], Fields(line)[1], Fields(line)[2],
      ParseInt(Fields(line)[3]).value, ParseInt(Fields(line)[4]).value,
      Fields(line)[5], Fields(line)[6], Fields(line)[7], Attributes.Parse(Fields(line)[8]).value)
  {
  }

  /** A record whose printed line parses back to it: `str()` can print its
      start and end, no column holds a tab, the line does not start with
      whitespace, and the attributes are canonical. */
  predicate Printable(r: Record) {
    && WithinDigitLimit(r.start) && WithinDigitLimit(r.end)
    && |r.seqname| > 0 && !IsSpace(r.seqname[0])
    && '\t' !in r.seqname && '\t' !in r.source && '\t' !in r.feature
    && '\t' !in r.score && '\t' !in r.strand && '\t' !in r.frame
    && Attributes.Canonical(r.attributes)
    && forall i :: 0 <= i < |r.attributes| ==> '\t' !in r.attributes[i].1
  }

  lemma AttributesWithoutTab(d: Attributes.AttrList)
    requires Attributes.EntriesValid(d)
    requires forall i :: 0 <= i < |d| ==> '\t' !in d[i].1
    ensures '\t' !in Attributes.Print(d)
  {
    if |d| > 0 {
      var toks := Attributes.Tokens(d);
      forall i | 0 <= i < |toks|
        ensures '\t' !in toks[i]
      {
        assert toks[i] == d[i].0 + " \"" + d[i].1 + "\"";
        assert Attributes.ValidKey(d[i].0);
      }
      JoinWithout(toks, Attributes.Separator, '\t');
    }
  }

  /** Each column of a printed record is the corresponding field, so an edit
      to a field shows up in exactly that column of the output. */
  lemma PrintedColumns(r: Record)
    requires Printable(r)
    ensures Fields(Join(Columns(r), Tab)) == Columns(r)
  {
    var cols := Columns(r);
    var line := Join(cols, Tab);
    AttributesWithoutTab(r.attributes);
    forall i | 0 <= i < 9
      ensures !Contains(cols[i], Tab)
    {
      ContainsChar(cols[i], '\t');
    }
    JoinHead(cols, Tab);
    assert cols == cols[..8] + [cols[8]];
    JoinSnoc(cols[..8], cols[8], Tab);
    assert line[|line| - 1] == ';';
    StripUnchanged(line);
    SeparatorsBorderless();
    SplitJoin(cols, Tab);
  }

  /** Round trip: a printable record prints to a line that parses back to
      the same record. */
  lemma RecordRoundTrip(r: Record)
    requires Printable(r)
    ensures ParseRecord(PrintRecord(r)) == Ok(r)
  {
    var line := PrintRecord(r);
    PrintedColumns(r);
    var f := Fields(line);
    ColumnsAre(r, f);
    ParseIntToString(r.start);
    ParseIntToString(r.end);
    Attributes.ParsePrint(r.attributes);
    ParsedColumns(line, r.start, r.end, r.attributes);
    assert r == Record(f[0], f[1], f[2], r.start, r.end, f[5], f[6], f[7], r.attributes);
  }

  /** A line as `str` writes it: no surrounding whitespace, exactly nine
      columns, start and end integers printed back unchanged by `str`, and
      an attributes column that `AttributesDict` parses and prints back
      unchanged. Such a line can fail to parse only through its
      start, end or attributes column, and those are well formed here. */
  predicate CanonicalLine(line: string) {
    && Strip(line) == line && |Fields(line)| == 9
    && ParseInt(Fields(line)[3]).Some? && Fields(line)[3] == IntToString(ParseInt(Fields(line)[3]).value)
    && ParseInt(Fields(line)[4]).Some? && Fields(line)[4] == IntToString(ParseInt(Fields(line)[4]).value)
    && Attributes.Parse(Fields(line)[8]).Ok?
    && Fields(line)[8] == Attributes.Print(Attributes.Parse(Fields(line)[8]).value)
  }

  /** A line in canonical form parses, and printing what it parses to
      reproduces the line. */
  lemma LineRoundTrip(line: string)
    requires CanonicalLine(line)
    ensures ParseRecord(line).Ok? && PrintRecord(ParseRecord(line).value) == line
  {
    var f := Fields(line);
    ParsedValue(line);
    var r := ParseRecord(line).value;
    ColumnsOf(f, r);
    JoinSplit(line, Tab);
  }

  lemma ColumnsAre(r: Record, f: seq<string>)
    requires f == Columns(r)
    ensures |f| == 9
    ensures r.seqname == f[0] && r.source == f[1] && r.feature == f[2]
    ensures IntToString(r.start) == f[3] && IntToString(r.end) == f[4]
    ensures r.score == f[5] && r.strand == f[6] && r.frame == f[7]
    ensures Attributes.Print(r.attributes) == f[8]
  {
  }

  lemma ColumnsOf(f: seq<string>, r: Record)
    requires |f| == 9
    requires r.seqname == f[0] && r.source == f[1] && r.feature == f[2]
    requires IntToString(r.start) == f[3] && IntToString(r.end) == f[4]
    requires r.score == f[5] && r.strand == f[6] && r.frame == f[7]
    requires Attributes.Print(r.attributes) == f[8]
    ensures Columns(r) == f
  {
    var cols := Columns(r);
    forall i | 0 <= i < 9
      ensures cols[i] == f[i]
    {
    }
  }

  /** Only the first nine columns matter. */
  lemma ExtraColumnsIgnored(line1: string, line2: string)
    requires |Fields(line1)| >= 9 && |Fields(line2)| >= 9
    requires Fields(line1)[..9] == Fields(line2)[..9]
    ensures ParseRecord(line1) == ParseRecord(line2)
  {
    var f1, f2 := Fields(line1), Fields(line2);
    forall i | 0 <= i < 9
      ensures f1[i] == f2[i]
    {
      assert f1[i] == f1[..9][i] && f2[i] == f2[..9][i];
    }
    assert f1[3] == f2[3] && f1[4] == f2[4] && f1[8] == f2[8];
    if ParseRecord(line1).Ok? {
      ParsedValue(line1);
      ParsedValue(line2);
    }
  }

  /** As written, a `.` in the frame column, which GTF uses for every
      feature that is not a coding sequence, makes the whole line fail. */
  lemma DotFrameRejectedAsWritten(line: string)
    requires |Fields(line)| >= 9 && Fields(line)[7] == "."
    ensures ParseRecordIntFrame(line) == Err(ParsingError)
  {
    DotIsNotANumber();
  }

  /** With `frame` kept as text, a line whose frame is `.` and whose other
      columns are well formed is accepted, keeps the `.`, and prints it back
      in the same column; the code as written rejects that same line. */
  lemma DotFrameKept(line: string)
    requires |Fields(line)| >= 9 && Fields(line)[7] == "."
    requires ParseInt(Fields(line)[3]).Some? && ParseInt(Fields(line)[4]).Some?
    requires Attributes.Parse(Fields(line)[8]).Ok?
    ensures ParseRecord(line).Ok? && ParseRecord(line).value.frame == "."
    ensures Columns(ParseRecord(line).value)[7] == "."
    ensures ParseRecordIntFrame(line) == Err(ParsingError)
  {
    DotFrameRejectedAsWritten(line);
  }
}

=== FILE: results.dfy ===
/** Failure-carrying values shared by every part of the model.

    The Python code raises two kinds of exception on the paths modelled here:
    `ParsingError` (gtfez/__init__.py:6) for malformed lines, attribute tokens
    and lookup-table lines, and the built-in `KeyError` raised by the ordered
    attribute dictionary on a missing key. Message texts are not modelled.
 */
module Results {

  datatype Error = ParsingError | KeyError

  datatype Option<+T> = None | Some(value: T)

  datatype Result<+T> = Ok(value: T) | Err(error: Error) {

    predicate IsFailure() {
      Err?
    }

    function PropagateFailure<U>(): Result<U>
      requires Err?
    {
      Err(error)
    }

    function Extract(): T
      requires Ok?
    {
      value
    }
  }

  /** Turns an absent value into a parsing failure. */
  function OrParsingError<T>(o: Option<T>): (r: Result<T>)
  {
    match o
    case Some(v) => Ok(v)
    case None => Err(ParsingError)
  }
}

=== FILE: text.dfy ===
/** Python string primitives the GTF code relies on: `str.strip()`,
    `str.rstrip(c)`, `str.split(sep)`, `sep.join(parts)` and the regular
    expression class `\w`.
 */
module Text {

  /** Python's `str.isspace()` set, which `str.strip()` removes (`int()`
      removes a slightly smaller set, see `Decimal.IsIntSpace`). */
  predicate IsSpace(c: char) {
    || c == ' '
    || ('\t' <= c <= '\r')
    || ('\U{1c}' <= c <= '\U{1f}')
    || c == '\U{85}'
    || c == '\U{a0}'
    || c == '\U{1680}'
    || ('\U{2000}' <= c <= '\U{200a}')
    || c == '\U{2028}'
    || c == '\U{2029}'
    || c == '\U{202f}'
    || c == '\U{205f}'
    || c == '\U{3000}'
  }

  /** The regular expression class `\w`, restricted to ASCII. */
  predicate IsWordChar(c: char) {
    ('a' <= c <= 'z') || ('A' <= c <= 'Z') || ('0' <= c <= '9') || c == '_'
  }

  /** `s.lstrip()`: removes the leading whitespace, and only that. */
  function LStrip(s: string): (r: string)
    ensures |r| <= |s| && r == s[|s| - |r|..]
    ensures forall i :: 0 <= i < |s| - |r| ==> IsSpace(s[i])
    ensures |r| == 0 || !IsSpace(r[0])
  {
    if |s| > 0 && IsSpace(s[0]) then LStrip(s[1..]) else s
  }

  /** `s.rstrip()`: removes the trailing whitespace, and only that. */
  function RStrip(s: string): (r: string)
    ensures |r| <= |s| && r == s[..|r|]
    ensures forall i :: |r| <= i < |s| ==> IsSpace(s[i])
    ensures |r| == 0 || !IsSpace(r[|r| - 1])
  {
    if |s| > 0 && IsSpace(s[|s| - 1]) then RStrip(s[..|s| - 1]) else s
  }

  /** `r` is the part of `s` from position `a` on, with only characters of
      the set `ws` cut from either end. */
  predicate TrimmedAt(s: string, a: int, r: string, ws: char -> bool) {
    && 0 <= a <= |s| - |r| && r == s[a..a + |r|]
    && (forall i :: 0 <= i < a ==> ws(s[i]))
    && (forall i :: a + |r| <= i < |s| ==> ws(s[i]))
  }

  /** Trailing characters of a suffix are trailing characters of the whole. */
  lemma {:induction false} TrailingShift(l: string, s: string, a: nat, n: nat, ws: char -> bool)
    requires a + |l| == |s| && l == s[a..] && n <= |l|
    requires forall j :: n <= j < |l| ==> ws(l[j])
    ensures forall i :: a + n <= i < |s| ==> ws(s[i])
  {
    forall i | a + n <= i < |s|
      ensures ws(s[i])
    {
      assert l[i - a] == s[i];
    }
  }

  /** `s.strip()`: `s` with the whitespace around it removed, and nothing
      else. */
  function Strip(s: string): (r: string)
    ensures |r| == 0 || (!IsSpace(r[0]) && !IsSpace(r[|r| - 1]))
    ensures exists a :: TrimmedAt(s, a, r, IsSpace)
  {
    StripShape(s);
    RStrip(LStrip(s))
  }

  lemma {:induction false} StripShape(s: string)
    ensures TrimmedAt(s, |s| - |LStrip(s)|, RStrip(LStrip(s)), IsSpace)
  {
    var l := LStrip(s);
    var r := RStrip(l);
    var a := |s| - |l|;
    assert r == s[a..a + |r|];
    TrailingShift(l, s, a, |r|, IsSpace);
    assert TrimmedAt(s, a, r, IsSpace);
  }

  /** A string that neither starts nor ends with whitespace is its own strip. */
  lemma StripUnchanged(s: string)
    requires |s| == 0 || (!IsSpace(s[0]) && !IsSpace(s[|s| - 1]))
    ensures Strip(s) == s
  {
  }

  /** `s.rstrip(c)` for a single character `c`: removes every trailing `c`. */
  function RStripChar(s: string, c: char): (r: string)
    ensures |r| <= |s| && r == s[..|r|]
    ensures forall i :: |r| <= i < |s| ==> s[i] == c
    ensures |r| == 0 || r[|r| - 1] != c
  {
    if |s| > 0 && s[|s| - 1] == c then RStripChar(s[..|s| - 1], c) else s
  }

  /** Adding more trailing copies of `c` does not change `s.rstrip(c)`. */
  lemma RStripCharAppend(s: string, c: char)
    ensures RStripChar(s + [c], c) == RStripChar(s, c)
  {
    assert (s + [c])[..|s + [c]| - 1] == s;
  }

  /** `sep in s`, the substring test, defined by the leftmost scan that
      `str.split` performs. */
  predicate Contains(s: string, sep: string) {
    |s| >= |sep| && (s[..|sep|] == sep || Contains(s[1..], sep))
  }

  /** For a one-character separator, containment is membership. */
  lemma {:induction false} ContainsChar(s: string, c: char)
    ensures Contains(s, [c]) <==> c in s
  {
    if |s| > 0 {
      ContainsChar(s[1..], c);
      assert s == [s[0]] + s[1..];
    }
  }

  /** For a two-character separator, containment is an adjacent pair. */
  lemma {:induction false} ContainsPair(s: string, a: char, b: char)
    ensures Contains(s, [a, b]) <==> exists i :: 0 <= i < |s| - 1 && s[i] == a && s[i + 1] == b
  {
    if |s| >= 2 {
      var t := s[1..];
      ContainsPair(t, a, b);
      assert s[..2] == [a, b] <==> (s[0] == a && s[1] == b);
      if Contains(s, [a, b]) {
        if s[..2] == [a, b] {
          assert 0 < |s| - 1 && s[0] == a && s[0 + 1] == b;
        } else {
          var j :| 0 <= j < |t| - 1 && t[j] == a && t[j + 1] == b;
          assert s[j + 1] == a && s[(j + 1) + 1] == b;
        }
      }
      if exists i :: 0 <= i < |s| - 1 && s[i] == a && s[i + 1] == b {
        var i :| 0 <= i < |s| - 1 && s[i] == a && s[i + 1] == b;
        if i > 0 {
          assert t[i - 1] == a && t[(i - 1) + 1] == b;
        }
      }
    }
  }

  /** A substring occurrence survives text appended after it. */
  lemma {:induction false} ContainsAppend(x: string, y: string, sep: string)
    requires Contains(x, sep)
    ensures Contains(x + y, sep)
  {
    if x[..|sep|] == sep {
      assert (x + y)[..|sep|] == x[..|sep|];
    } else {
      ContainsAppend(x[1..], y, sep);
      assert (x + y)[1..] == x[1..] + y;
    }
  }

  /** A substring occurrence survives text prepended before it. */
  lemma {:induction false} ContainsPrepend(x: string, y: string, sep: string)
    requires Contains(y, sep)
    ensures Contains(x + y, sep)
  {
    if |x| > 0 {
      ContainsPrepend(x[1..], y, sep);
      assert (x + y)[1..] == x[1..] + y;
    } else {
      assert x + y == y;
    }
  }

  /** No proper suffix of `sep` is also a prefix of it, so two occurrences of
      `sep` never overlap and one cannot start inside a part of a join. Both
      separators the GTF code splits on, a tab and `"; "`, are borderless. */
  predicate Borderless(sep: string) {
    forall t :: 0 < t < |sep| ==> sep[t..] != sep[..|sep| - t]
  }

  lemma SeparatorsBorderless()
    ensures Borderless("\t")
    ensures Borderless("; ")
  {
    forall t | 0 < t < |"; "|
      ensures "; "[t..] != "; "[..|"; "| - t]
    {
      assert "; "[t..] == [' '] && "; "[..|"; "| - t] == [';'];
    }
  }

  /** `s.split(sep)`: cut `s` at every occurrence of `sep`, scanning from the
      left and never reusing characters of an occurrence. */
  function Split(s: string, sep: string): (parts: seq<string>)
    requires |sep| > 0
    ensures |parts| >= 1
    decreases |s|
  {
    if |s| < |sep| then [s]
    else if s[..|sep|] == sep then [[]] + Split(s[|sep|..], sep)
    else
      var rest := Split(s[1..], sep);
      [[s[0]] + rest[0]] + rest[1..]
  }

  /** `sep.join(parts)` */
  function Join(parts: seq<string>, sep: string): (s: string)
    ensures |parts| == 1 ==> s == parts[0]
  {
    if |parts| == 0 then []
    else if |parts| == 1 then parts[0]
    else parts[0] + sep + Join(parts[1..], sep)
  }

  /** Joining what was split gives back the original string. */
  lemma {:induction false} JoinSplit(s: string, sep: string)
    requires |sep| > 0
    ensures Join(Split(s, sep), sep) == s
    decreases |s|
  {
    if |s| < |sep| {
    } else if s[..|sep|] == sep {
      var rest := Split(s[|sep|..], sep);
      assert Split(s, sep) == [[]] + rest;
      assert ([[]] + rest)[1..] == rest;
      JoinSplit(s[|sep|..], sep);
      assert s == s[..|sep|] + s[|sep|..];
    } else {
      var rest := Split(s[1..], sep);
      assert Split(s, sep) == [[s[0]] + rest[0]] + rest[1..];
      JoinSplit(s[1..], sep);
      JoinPrependChar(s[0], rest, sep);
      assert s == [s[0]] + s[1..];
    }
  }

  /** Gluing a character onto the first part glues it onto the joined text. */
  lemma JoinPrependChar(c: char, rest: seq<string>, sep: string)
    requires |rest| >= 1
    ensures Join([[c] + rest[0]] + rest[1..], sep) == [c] + Join(rest, sep)
  {
    var parts := [[c] + rest[0]] + rest[1..];
    if |rest| > 1 {
      assert parts[1..] == rest[1..];
    }
  }

  /** Text free of the separator is not cut. */
  lemma {:induction false} SplitWithout(p: string, sep: string)
    requires |sep| > 0
    requires !Contains(p, sep)
    ensures Split(p, sep) == [p]
    decreases |p|
  {
    if |p| >= |sep| {
      SplitWithout(p[1..], sep);
      assert p == [p[0]] + p[1..];
    }
  }

  /** The first part produced by a split is the text before the first
      occurrence of a borderless separator. */
  lemma {:induction false} SplitAt(p: string, rest: string, sep: string)
    requires |sep| > 0 && Borderless(sep)
    requires !Contains(p, sep)
    ensures Split(p + sep + rest, sep) == [p] + Split(rest, sep)
    decreases |p|
  {
    var s := p + sep + rest;
    if |p| == 0 {
      assert s[..|sep|] == sep;
      assert s[|sep|..] == rest;
    } else {
      if |p| >= |sep| {
        assert s[..|sep|] == p[..|sep|];
      } else {
        var t := |p|;
        assert sep[t..] != sep[..|sep| - t];
        assert s[..|sep|][t..] == sep[..|sep| - t];
        assert s[..|sep|] != sep;
      }
      assert s[1..] == p[1..] + sep + rest;
      SplitAt(p[1..], rest, sep);
      assert p == [p[0]] + p[1..];
    }
  }

  /** Splitting a join recovers the parts, as long as no part contains the
      (borderless) separator. */
  lemma {:induction false} SplitJoin(parts: seq<string>, sep: string)
    requires |sep| > 0 && Borderless(sep)
    requires |parts| >= 1
    requires forall i :: 0 <= i < |parts| ==> !Contains(parts[i], sep)
    ensures Split(Join(parts, sep), sep) == parts
  {
    if |parts| == 1 {
      SplitWithout(parts[0], sep);
    } else {
      SplitJoin(parts[1..], sep);
      SplitAt(parts[0], Join(parts[1..], sep), sep);
      assert parts == [parts[0]] + parts[1..];
    }
  }

  /** The first part of a split is a prefix of the input. */
  lemma {:induction false} SplitHeadPrefix(s: string, sep: string)
    requires |sep| > 0
    ensures Split(s, sep)[0] <= s
    decreases |s|
  {
    if |s| >= |sep| && s[..|sep|] != sep {
      SplitHeadPrefix(s[1..], sep);
    }
  }

  /** No part of a split contains the separator. */
  lemma {:induction false} SplitPartsWithout(s: string, sep: string)
    requires |sep| > 0
    ensures forall i :: 0 <= i < |Split(s, sep)| ==> !Contains(Split(s, sep)[i], sep)
    decreases |s|
  {
    if |s| < |sep| {
    } else if s[..|sep|] == sep {
      SplitPartsWithout(s[|sep|..], sep);
      assert !Contains([], sep);
    } else {
      var rest := Split(s[1..], sep);
      SplitPartsWithout(s[1..], sep);
      SplitHeadPrefix(s[1..], sep);
      var head := [s[0]] + rest[0];
      if |head| >= |sep| {
        assert head[..|sep|] == s[..|sep|];
        assert head[1..] == rest[0];
      }
      assert !Contains(head, sep);
      var parts := [head] + rest[1..];
      forall i | 0 <= i < |parts|
        ensures !Contains(parts[i], sep)
      {
        if i > 0 {
          assert parts[i] == rest[i];
        }
      }
    }
  }

  /** Appending one more part to a join. */
  lemma {:induction false} JoinSnoc(parts: seq<string>, p: string, sep: string)
    requires |parts| >= 1
    ensures Join(parts + [p], sep) == Join(parts, sep) + sep + p
  {
    if |parts| == 1 {
      assert (parts + [p])[1..] == [p];
    } else {
      assert (parts + [p])[1..] == parts[1..] + [p];
      JoinSnoc(parts[1..], p, sep);
    }
  }

  /** A character absent from the separator and from every part is absent
      from the join. */
  lemma {:induction false} JoinWithout(parts: seq<string>, sep: string, c: char)
    requires c !in sep
    requires forall i :: 0 <= i < |parts| ==> c !in parts[i]
    ensures c !in Join(parts, sep)
  {
    if |parts| > 1 {
      JoinWithout(parts[1..], sep, c);
    }
  }

  /** The text ends with the last part of its split, right after a
      separator when there are several parts. */
  lemma SplitLastPart(s: string, sep: string)
    requires |sep| > 0
    ensures |Split(s, sep)| >= 2 ==>
      s == Join(Split(s, sep)[..|Split(s, sep)| - 1], sep) + sep + Split(s, sep)[|Split(s, sep)| - 1]
  {
    var f := Split(s, sep);
    if |f| >= 2 {
      var n := |f| - 1;
      JoinSplit(s, sep);
      assert f == f[..n] + [f[n]];
      JoinSnoc(f[..n], f[n], sep);
    }
  }

  /** A text that does not end with the separator has a non-empty last
      part whenever it splits at all. */
  lemma SplitLastNonEmpty(s: string, sep: string)
    requires |sep| > 0 && !(|s| >= |sep| && s[|s| - |sep|..] == sep)
    ensures |Split(s, sep)| >= 2 ==> Split(s, sep)[|Split(s, sep)| - 1] != ""
  {
    var f := Split(s, sep);
    if |f| >= 2 {
      var n := |f| - 1;
      SplitLastPart(s, sep);
      var head, tail := Join(f[..n], sep), sep + f[n];
      assert s == head + tail;
      EndsWith(head, tail);
    }
  }

  lemma EndsWith(a: string, b: string)
    ensures (a + b)[|a + b| - |b|..] == b
  {
  }

  /** A join whose first part is non-empty starts with that part's first
      character. */
  lemma JoinHead(parts: seq<string>, sep: string)
    requires |parts| >= 1 && |parts[0]| > 0
    ensures |Join(parts, sep)| > 0 && Join(parts, sep)[0] == parts[0][0]
  {
  }
}
